=== FILE: README.md ===
# Affinity panel: state, synchronisation and view selection

This project models the core of the Affinity administrative panel (`teste2/script.js`): a single-page
app in which insurance-broker staff look up FAQs and support-material links per insurance carrier
("operadora"), and an administrator ("Assistente") edits that content and manages broker ("Corretor")
accounts.

The model keeps the program's structure but removes the browser and the remote store:

- `State`: the application state object and `setState`, a shallow merge.
- `Backend`: an in-memory stand-in for the remote store. It holds the `users` collection, the
  single shared content document with its `faqs` and `materiais` maps keyed by operator name, and
  the credential service with its session. A call fails when it is in the `faults` set the caller
  passes. It also fails when the store's own data refuses it: an update of a missing document, a
  sign-in with an unknown email or a wrong password, or a credential for an email that already has one.
- `Content`: the pure map and list work of the content mutations. Appending builds a new map.
  Removing filters one position. `addMaterial` normalises the link.
- `Sync`: `loadData`, which reloads the authoritative data from the store, and the four content
  mutations. Each mutation writes one whole map and then reloads.
- `Accounts`: login, logout, creating a broker, deleting a broker.
- `Views`: the choices `render` makes, without the HTML. It picks the login screen, the home grid,
  the operator detail, the broker list or nothing. It filters operator cards by case-insensitive
  substring, decides when "none found" is shown, and shows add/remove controls only to the
  administrative role.
- `Text`: JavaScript `trim`, ASCII `toLowerCase`, and `includes`.
- `Events`: what each click or keystroke does on the page just rendered. This covers the inline
  `onclick` handlers and the ones `attachEventListeners` wires. A control that is not on the screen,
  or whose handler is not wired for the current role and view, does nothing. `Events.Run` plays a
  sequence of such events from the initial page.

Every operation is a pure function. It takes the application state, the store and the fault set,
plus the user's inputs. It returns an `Outcome`:

- the new state and store;
- the backend calls it issued, in order;
- the notices (toasts) it showed.

Contracts about "no backend call is made" or "the document is written only after the credential"
are stated over that call list.

Reloading twice in a row is not idempotent in one case (lines 94-97 of `loadData`). When the
content document is missing, `loadData` creates the document empty but does not reset `faqs` and
`materiais` in the state. A state that still holds
content from an earlier session on the same page therefore keeps it until the next reload.
`Sync.FirstReloadKeepsStaleFaqs` shows this. `Sync.ReloadTwice` proves the idempotence that does
hold once the document exists. `Sync.ReloadSettles` proves that, when the same calls fail on every
reload, nothing changes from the second reload on. `Sync.ReloadSettlesAfterSuccess` proves that after
one successful reload of an existing document, further reloads change nothing, whatever fails then.

## Model

| member | source | states |
|---|---|---|
| State.SetState | teste2/script.js:36-39 | merging the empty patch leaves the state unchanged |
| State.SetStateOneField | teste2/script.js:36-39 | a patch naming one field sets exactly that field to the patch's value and keeps every other; a patch naming every field of a state yields that state |
| State.SetStateThen | teste2/script.js:36-39 | two successive merges equal one merge in which the later patch wins on every field both name |
| State.SetStateIdempotent | teste2/script.js:36-39 | repeating the same merge changes nothing more |
| Text.TrimSpec | teste2/script.js:276-278 | trim returns a slice of the input with only white space cut from either end; the result has no white space at either end; it is empty exactly when the input is all white space; trimming twice equals trimming once |
| Text.Lower | teste2/script.js:394 | the result is never an upper-case ASCII letter, and it is a lower-case letter exactly when the input is a letter of either case |
| Text.LowerSpec | teste2/script.js:394 | the k-th letter of `A`..`Z` maps to the k-th letter of `a`..`z`; any other character is unchanged; lowering twice equals lowering once |
| Text.LowerStr | teste2/script.js:394 | lower-casing keeps the length and leaves no upper-case ASCII letter |
| Text.LowerStrSpec | teste2/script.js:394 | lower-casing a string is idempotent, commutes with taking a slice, and distributes over concatenation |
| Text.IncludesSpec | teste2/script.js:394 | `includes` is true exactly when the searched text occurs at some position; the empty string occurs everywhere |
| Backend.FirstWithEmail | teste2/script.js:121-124 | the lookup returns nothing exactly when no record has the email; otherwise it returns a record with that email that no earlier record shares |
| Backend.WithoutId | teste2/script.js:230 | deleting by id keeps exactly the documents with a different id and never grows the collection |
| Backend.WithoutIdRemovesOne | teste2/script.js:230 | when ids are unique and the id is present, deleting it removes exactly one document |
| Backend.WithoutIdKeepsUnique | teste2/script.js:230 | deleting preserves unique ids and unique emails |
| Backend.Apply | teste2/script.js:248 | reading back the named field (`faqs` or `materiais`) after an update gives exactly the written map; the other field is kept as stored |
| Backend.ApplyLaws | teste2/script.js:248 | a second update of the same field overrides the first; updates of the two different fields commute |
| Backend.StatusSpec | teste2/script.js:196-214 | outside the injected faults, the store refuses only three calls: an update of a missing document, a sign-in with wrong credentials, and a credential for an email that already has one, which gets its own error |
| Backend.SignInNeedsCredential | teste2/script.js:138-140 | a sign-in succeeds exactly when it is not faulted and the stored credential equals the given password |
| Content.Append | teste2/script.js:260-262 | the written map is the old one with the operator's list (empty when absent) extended by exactly the new entry at the end; every other operator's list is unchanged |
| Content.DropIndexSpec | teste2/script.js:269 | filtering by position removes exactly the element at an in-range index and keeps the rest in order; an out-of-range index removes nothing |
| Content.RemoveEntrySpec | teste2/script.js:268-270 | the written map differs from the old one only under the operator; there it drops one position; an absent operator gets an empty list |
| Content.RemoveUndoesAppend | teste2/script.js:257-273 | removing the position just appended gives back the operator's old list; it restores the original map when the operator already had a list, and otherwise leaves the operator with an empty list |
| Content.NormalizeLinkSpec | teste2/script.js:278-281 | the stored link is empty exactly when the input is blank; otherwise it starts with `http://` or `https://`; it is trimmed; a link already carrying one of those schemes, or an empty one, is stored as trimmed; otherwise `https://` is prepended to the trimmed link |
| Content.NormalizeLinkIdempotent | teste2/script.js:278-281 | normalising an already normalised link changes nothing |
| Content.NormalizeBareAddress | teste2/script.js:278-281 | `example.com/doc` becomes `https://example.com/doc` |
| Content.NormalizeIsCaseSensitive | teste2/script.js:279 | an upper-case `HTTP://` prefix is not recognised and gets `https://` prepended |
| Sync.LoadData | teste2/script.js:70-104 | with no user there are no calls and no change; the reload only reads, except that it may create the missing document; only `users`, `faqs`, `materiais` and `dataLoaded` can change; any failure leaves state and store unchanged and shows an error; a successful reload of an existing document leaves the state in step with the store; when the document is missing, it is created empty and only `users` and `dataLoaded` are set |
| Sync.ReloadTwice | teste2/script.js:70-104 | once the document exists, a second successful reload returns the same state and store |
| Sync.ReloadSettles | teste2/script.js:86-98 | when the same calls fail on every reload, a third reload changes nothing after the second |
| Sync.ReloadInSyncIsStable | teste2/script.js:70-104 | a loaded state already in step with the store is left unchanged by a reload, whatever fails |
| Sync.ReloadSettlesAfterSuccess | teste2/script.js:70-104 | after one successful reload of an existing document, a second and third reload, each with its own failures, leave state and store as the first left them |
| Sync.FirstReloadKeepsStaleFaqs | teste2/script.js:94-98 | the reload that creates the missing document keeps stale `faqs` in the state; the next reload brings the state in step with the store |
| Sync.UpdateSharedContent | teste2/script.js:246-255 | the update is the first call; a refused update, including one on a missing document, changes nothing and reloads nothing; a successful one stores the replaced field, shows success, and after a successful reload leaves the state in step with the store |
| Sync.AddFaq | teste2/script.js:257-265 | an empty question or answer writes nothing and makes no call; otherwise the written `faqs` map is the old one with exactly the new entry appended under the operator, and after the reload the state holds that map |
| Sync.RemoveFaq | teste2/script.js:267-273 | the written `faqs` map drops only position `idx` from the operator's list; the state holds that map after the reload |
| Sync.AddMaterial | teste2/script.js:275-289 | a description that is blank after trimming writes nothing; otherwise the trimmed description and the normalised link are appended under the operator and written as the whole `materiais` map |
| Sync.RemoveMaterial | teste2/script.js:291-297 | the written `materiais` map drops only position `idx` from the operator's list |
| Sync.AddThenRemoveFaq | teste2/script.js:257-273 | for an operator that already had a FAQ list, adding a FAQ and then removing the position it was stored at restores the state's and the store's `faqs` (an operator with no list is left with an empty one, see `Content.RemoveUndoesAppend`) |
| Sync.AddMaterialAddsScheme | teste2/script.js:275-289 | adding `("Table", "example.com/doc")` reloads with that material, linked to `https://example.com/doc`, at the end of the operator's list |
| Accounts.Login | teste2/script.js:110-160 | an empty email or password makes no call and warns; a failed lookup shows the generic login error and changes nothing; an unknown email shows "user not found" and a password mismatch "incorrect password", each after only the lookup and without a sign-in; `currentUser` changes only on a match; a match that the credential service accepts sets `currentUser` to the found record, the view to home, clears the four credential fields and opens the session, and beyond that login patch only the reloaded data changes; a sign-in refused for an unknown account or a wrong password shows "user or password incorrect", any other refusal the generic error, both leaving state and store unchanged |
| Accounts.Authenticate | teste2/script.js:138-158 | the sign-in is the first call; a refusal changes nothing and maps unknown-account and wrong-password to their own message and anything else to the generic one; an accepted sign-in opens the session for the email and changes only the login patch and the reloaded data |
| Accounts.LoginCredentialMismatch | teste2/script.js:134-158 | a user record whose stored password matches, but with no matching credential in the credential service, gets exactly the lookup and the sign-in calls and the "user or password incorrect" message, with nothing changed |
| Accounts.LoginSucceeds | teste2/script.js:131-145 | with matching credentials and a store that answers, the user ends logged in as the found record, with data loaded and in step with the store |
| Accounts.LoginWrongPassword | teste2/script.js:134-149 | a wrong password issues only the lookup and shows "incorrect password", whatever is stored |
| Accounts.Logout | teste2/script.js:162-177 | logout resets exactly `currentUser`, `email`, `senha`, `selected`, `query`, `currentView` and `dataLoaded`, and leaves every other field alone; a sign-out failure does not stop it |
| Accounts.LogoutThenReload | teste2/script.js:162-177 | after logout a reload makes no call and changes nothing |
| Accounts.AddCorretor | teste2/script.js:184-216 | missing fields or an email already among the loaded users make no call; the credential is the first call and the document is written only after it succeeds; a credential refused because the email is in use shows its own message, any other refusal the generic one, with nothing changed; the new document is a `Corretor` with the given fields; once the document is written the form fields are cleared; a failed document write leaves the credential behind, shows the generic error and issues no further call; apart from the form fields only the reloaded data changes in the state |
| Accounts.StoreCorretor | teste2/script.js:202-208 | the document write is the first call and at most a reload follows; a failed write changes nothing and shows the generic error; a successful one appends the document, announces the broker by name, clears the form and, after a successful reload, leaves the state holding the stored users |
| Accounts.AddCorretorFailureNoReload | teste2/script.js:196-215 | a creation that ends in an error message leaves the state unchanged and issues no call beyond the credential and the document |
| Accounts.AddCorretorExistingCredential | teste2/script.js:196-199 | an email that already has a credential never gets a new user document |
| Accounts.AddCorretorSucceeds | teste2/script.js:184-208 | with a new email and everything answering, the credential and then the document are written, the form is cleared and the state holds the reloaded users |
| Accounts.AddCorretorEmailInUse | teste2/script.js:196-211 | an email missing from the loaded users but already holding a credential is refused by the credential service with the "email in use" message, after only that call |
| Accounts.AddCorretorKeepsUnique | teste2/script.js:187 | when the local users match the store, creation keeps stored emails unique, and keeps ids unique when the assigned id is fresh |
| Accounts.DuplicateCreationRefused | teste2/script.js:185-206 | after a broker is created, a second creation with the same email makes no call, leaves the store unchanged and shows the duplicate error |
| Accounts.RemoveCorretor | teste2/script.js:218-239 | the protected email is refused before any lookup; an unknown email, or a record without an id, makes no call and shows "user not in database"; otherwise the only delete is the first call and targets the found record's id, and at most a reload follows; a refused delete shows the removal error, changes nothing and reloads nothing; an accepted delete removes the document and announces the removed email, even when the reload then fails; only the reloaded data changes in the state; credentials and session stay untouched |
| Accounts.DeleteAndReload | teste2/script.js:227-238 | the delete is the first call and at most a reload follows; a refused delete changes nothing and shows the removal error; an accepted one removes the documents with that id, announces the email, at most adds the reload's error, and after a successful reload leaves the state holding the stored users |
| Accounts.RemoveCorretorDeletesOne | teste2/script.js:221-230 | with unique stored ids, removal deletes exactly the one document of the found record and keeps every other document |
| Views.CardShownSpec | teste2/script.js:394 | a card is shown exactly when the query is empty or the lower-cased query occurs in the lower-cased name |
| Views.CardsSpec | teste2/script.js:392-421 | the grid has one card for each shown operator, each card carrying that operator's FAQ and material counts; with an empty query every operator is shown |
| Views.CardsAreShownOperators | teste2/script.js:392-425 | the grid is exactly one card per operator in the operator list's order with an empty query, and one card per operator of the "none found" filter, in order, otherwise |
| Views.CardsOfConcat | teste2/script.js:392-421 | the card list of a concatenation is the concatenation of the card lists, so cards keep the operators' order |
| Views.MatchingOfConcat | teste2/script.js:423 | the "none found" filter distributes over concatenation |
| Views.MatchingSpec | teste2/script.js:423 | the filter keeps exactly the operators whose lower-cased name contains the lower-cased query, and never grows the list |
| Views.CardsCountMatching | teste2/script.js:394-423 | with a non-empty query, the card guard and the "none found" filter select the same number of operators |
| Views.NoneFoundSpec | teste2/script.js:423-425 | the "none found" line appears exactly when the query is non-empty and no card is shown |
| Views.SearchBra | teste2/script.js:392-425 | searching `bra` over Amil and Bradesco shows exactly the Bradesco card and no "none found" line |
| Views.DetailBody | teste2/script.js:431-518 | the detail lists the operator's FAQs and materials in stored order; add forms and every remove button exist exactly for role `Assistente`; the button on entry i carries index i |
| Views.RemoveButtonDropsItsEntry | teste2/script.js:458-466 | the index on the i-th remove button makes `removeFaq` drop exactly the i-th entry |
| Views.Corretores | teste2/script.js:521 | the management list holds exactly the loaded users whose role is `Corretor` |
| Views.CorretoresOfConcat | teste2/script.js:521 | the management filter keeps the users' order (it distributes over concatenation) |
| Views.ManagementBody | teste2/script.js:520-558 | the management screen lists exactly the brokers in the loaded order, with one remove button per listed broker carrying that broker's email |
| Views.Render | teste2/script.js:569-589 | no user gives the login screen with the state's `email` and `senha` fields, which the program only ever sets to empty; otherwise a selected operator gives its detail whatever the view; with no selection, home gives the grid, management gives the broker list with its form and buttons, and the detail view gives nothing; the management link appears exactly for `Assistente`; the search hero shows exactly with grid or detail |
| Views.EditControlsOnlyForAssistente | teste2/script.js:347-558 | some editing control (management link, add form, remove button, broker form) appears exactly for `Assistente` or for a non-administrator left on the management view; in any state where only the administrator can be on that view, exactly for `Assistente` |
| Views.InitialScreen | teste2/script.js:17-31 | the initial state renders the empty login screen, has no editing control and satisfies the view guard |
| Events.Dispatch | teste2/script.js:599-680 | an editing event from a non-administrator does nothing; with nobody logged in only the login form acts; the management link changes the state only for the administrator, and then opens the management view; from a state where only the administrator can be on the management view, every event keeps it so |
| Events.Navigate | teste2/script.js:343-440 | a card click changes the state only for a listed operator whose card is shown, and then selects it and opens its detail; the management link acts only for the administrator; the view guard is preserved |
| Events.Edit | teste2/script.js:617-680 | the content handlers act only for the administrator on the detail of the selected operator, the broker handlers only for the administrator on the management screen; when wired, add FAQ is `addFaq` and add material is `addMaterial` on the selected operator, add broker is `addCorretor` with the typed fields; a remove button exists only for a listed entry, so an in-range index is `removeFaq`, `removeMaterial` or `removeCorretor` of that entry and an out-of-range one does nothing; beyond the broker form fields only the reloaded data changes |
| Events.EditContent | teste2/script.js:619-656 | the detail handlers do nothing unless the administrator is on the detail of a selected operator; then add FAQ and add material are `addFaq` and `addMaterial` on that operator, and a remove button with an in-range index is `removeFaq` or `removeMaterial` of that entry while an out-of-range one does nothing; only the reloaded data changes |
| Events.EditAccounts | teste2/script.js:658-679 | the broker handlers do nothing unless the administrator is on the management screen; then add broker is `addCorretor` with the typed fields and the button of the i-th listed broker is `removeCorretor` of that broker's email, while an index past the list does nothing |
| Events.RunKeepsViewGuarded | teste2/script.js:599-680 | a sequence of events from a state where only the administrator can be on the management view keeps that so |
| Events.RunKeepsLoginFieldsEmpty | teste2/script.js:20-21 | from a state whose `email` and `senha` are empty, every sequence of events keeps them empty: login (line 142) and logout (lines 169-170) set them to `""` and nothing else writes them |
| Events.ReachableLoginScreenEmpty | teste2/script.js:303-335 | on every page reachable from the initial one, a login screen shows empty email and password fields |
| Events.ReachableEditControls | teste2/script.js:347-558 | on every page reachable from the initial one, whatever was clicked and whatever failed, editing controls are shown exactly to the administrator |

## Left out

- HTML generation and DOM access are presentation. The model keeps the choice of screen, which controls each screen carries, and the index or email each remove button carries. The event handlers are modelled by `Events`.
- `render` draws the management screen, with its form and remove buttons, for whoever has `currentView` set to `gerenciamento_corretores` (lines 529-558 and 584-585). Its handlers are wired only for the administrator (line 658). Only the administrator's navigation link (lines 347-352) sets that view. `Views.EditControlsOnlyForAssistente` therefore states the exact condition for any state. `Events.ReachableEditControls` states the administrator-only claim for the states the page can reach.
- After the add-FAQ and add-material clicks, the handlers clear their input boxes in the DOM (lines 628-629, 646-647). The model does not hold those inputs; an event carries the values typed.
- The clear button of the search box (line 381) sets `query` to empty, which is `Events.SearchInput("")`. The Enter key in the password box is the same `LoginSubmit` as the login button.
- Which calls fail and the id a new document gets are inputs of each `Events.Step`, not chosen by the model.
- The `render` guard for a missing `app-container` element (lines 571-575) is DOM plumbing.
- `parseInt` on the `data-idx` attribute is DOM plumbing. A non-numeric index would give `NaN`, which removes nothing, like any out-of-range index here.
- `showCustomMessage` and its 4-second timer are a UI side effect. Each operation returns the notices it asks for, in order, as severity plus message. The model does not say which of them the user sees. Every `setState` re-renders (line 38), and `render` rebuilds an empty `custom-message-container` (line 588). So a toast shown before a later `setState` is erased by it: the success toasts of `updateSharedContent` (line 249), `addCorretor` (line 203) and `removeCorretor` (line 232) are erased by the reload's `setState` that follows them. `renderLogin` (lines 303-335) draws no container, so the login-screen warnings reach the early return at line 47 unless the host page supplies one.
- `console.error` logging is not modelled.
- The real remote-store client is a foreign library. It is replaced by `Backend.Status` and `Backend.Effect`, and which calls fail is an input (`faults`).
- The order of query results (the store orders by document id) is replaced by the collection's sequence order.
- The id the store assigns to a new user document is a parameter of `AddCorretor`.
- Interleaved asynchronous operations ("last reload wins") are concurrency, not sequential logic. This includes removals by an index computed against a list that changed in between. Every operation here runs to completion alone.
- Sync.AddFaq: in the source, `{ ...state.faqs }` copies only the map, so `push` also grows the list still held in `state.faqs` before anything is written. That change persists locally even when the update fails. The model uses value semantics, so a failed write leaves the state untouched. Sync.AddMaterial has the same divergence.
- Text.Lower: lowers only ASCII letters. JavaScript's `toLowerCase` also lowers non-ASCII capitals such as `É`, so a query typed in capitals with accents matches less here.
- Text.IsSpace uses the ECMAScript white-space and line-terminator code points as of the 2019 edition.
- Documents with missing or non-string fields are not modelled. Every user field is a string. An `id` field inside the document data, which would override the document id when spreading, is not modelled either.
- The content document's missing `faqs`/`materiais` fields are modelled (read as `{}`). Other malformed content is not.
- The credential client also signs in the newly created account on `createUserWithEmailAndPassword`. The model's session changes only on sign-in and sign-out.
- Security rules of the store are not modelled, so the session never authorises or refuses a call.
- `currentView` takes only the three values the program assigns.
- The greeting in the navigation bar (first word of `nome`) and the placeholder texts are presentation.
- Deleting a broker removes only the user document, never the credential, as in the source. `Accounts.RemoveCorretor` states that credentials stay unchanged.

=== FILE: accounts.dfy ===
/**
 * Account handling of teste2/script.js: `handleLogin`, `handleLogout`,
 * `addCorretor` and `removeCorretor`. The email and password fields the page
 * reads from its inputs are parameters here.
 */
module Accounts {
  import opened Base
  import opened State
  import opened Backend
  import opened Sync

  /** The bootstrap administrator, which `removeCorretor` never deletes. */
  const PROTECTED_EMAIL: string := "assistente@painel.com"

  /** What a successful login merges into the state before reloading. */
  function LoginPatch(u: User): Patch {
    Keep.(currentUser := Some(Some(u)), email := Some(""), senha := Some(""),
          newEmail := Some(""), newSenha := Some(""), currentView := Some(Home))
  }

  /** The record a login with this email and password would accept, if any. */
  function Match(users: seq<User>, email: string, senha: string): Option<User> {
    var found := FirstWithEmail(users, email);
    if found.Some? && found.value.senha == senha then found else None
  }

  /**
   * `handleLogin`: look the email up, compare the stored password exactly,
   * then open a credential session and reload. Every refusal leaves the
   * state as it was; only a successful login sets `currentUser`, and then to
   * the looked-up record, with the login and new-account credentials cleared
   * and the view back at home.
   */
  function Login(s: AppState, st: Store, faults: set<Call>, email: string, senha: string): (o: Outcome)
    ensures email == "" || senha == "" ==>
      o == Outcome(s, st, [], [Notice(Warning, FillEmailAndPassword)])
    ensures o.store.users == st.users && o.store.credentials == st.credentials
    ensures Match(st.users, email, senha).None? ==> o.state == s && o.store == st && SignIn(email, senha) !in o.calls
    ensures o.state.currentUser != s.currentUser ==> Match(st.users, email, senha).Some?
    ensures (email != "" && senha != "" && Match(st.users, email, senha).Some?
             && FindUserByEmail(email) !in faults && Status(st, faults, SignIn(email, senha)).None?) ==>
      var u := Match(st.users, email, senha).value;
      && o.state.currentUser == Some(u)
      && o.state.currentView == Home
      && o.state.email == "" && o.state.senha == "" && o.state.newEmail == "" && o.state.newSenha == ""
      && o.store.session == Some(email)
      && |o.calls| >= 2 && o.calls[..2] == [FindUserByEmail(email), SignIn(email, senha)]
    ensures (email != "" && senha != "" && Match(st.users, email, senha).Some?
             && Status(st, faults, SignIn(email, senha)).Some?) ==> o.state == s
    ensures o.state != s ==> OnlyDataChanged(SetState(s, LoginPatch(Match(st.users, email, senha).value)), o.state)
    ensures email != "" && senha != "" && FindUserByEmail(email) in faults ==>
      o == Outcome(s, st, [FindUserByEmail(email)], [Notice(Error, LoginFailed)])
    ensures email != "" && senha != "" && FindUserByEmail(email) !in faults && FirstWithEmail(st.users, email).None? ==>
      o == Outcome(s, st, [FindUserByEmail(email)], [Notice(Error, NoSuchUser)])
    ensures (email != "" && senha != "" && FindUserByEmail(email) !in faults && FirstWithEmail(st.users, email).Some?
             && FirstWithEmail(st.users, email).value.senha != senha) ==>
      o == Outcome(s, st, [FindUserByEmail(email)], [Notice(Error, IncorrectPassword)])
    ensures (email != "" && senha != "" && FindUserByEmail(email) !in faults && Match(st.users, email, senha).Some?
             && (Status(st, faults, SignIn(email, senha)) == Some(UserNotFound) || Status(st, faults, SignIn(email, senha)) == Some(WrongPassword))) ==>
      o == Outcome(s, st, [FindUserByEmail(email), SignIn(email, senha)], [Notice(Error, BadCredentials)])
    ensures (email != "" && senha != "" && FindUserByEmail(email) !in faults && Match(st.users, email, senha).Some?
             && Status(st, faults, SignIn(email, senha)) == Some(Unavailable)) ==>
      o == Outcome(s, st, [FindUserByEmail(email), SignIn(email, senha)], [Notice(Error, LoginFailed)])
  {
    if email == "" || senha == "" then Outcome(s, st, [], [Notice(Warning, FillEmailAndPassword)])
    else
      var q := FindUserByEmail(email);
      if Status(st, faults, q).Some? then Outcome(s, st, [q], [Notice(Error, LoginFailed)])
      else match FirstWithEmail(st.users, email)
        case None => Outcome(s, st, [q], [Notice(Error, NoSuchUser)])
        case Some(u) =>
          if u.senha != senha then Outcome(s, st, [q], [Notice(Error, IncorrectPassword)])
          else After([q], [], Authenticate(s, st, faults, u, email, senha))
  }

  /**
   * The part of `handleLogin` after the password matched: open the credential
   * session, merge the login fields, reload. A refused sign-in is reported as
   * a bad email or password when the service says so, and as a general
   * login failure otherwise.
   */
  function Authenticate(s: AppState, st: Store, faults: set<Call>, u: User, email: string, senha: string): (o: Outcome)
    ensures o.calls != [] && o.calls[0] == SignIn(email, senha)
    ensures o.store.users == st.users && o.store.credentials == st.credentials
    ensures (Status(st, faults, SignIn(email, senha)) == Some(UserNotFound) || Status(st, faults, SignIn(email, senha)) == Some(WrongPassword)) ==>
      o == Outcome(s, st, [SignIn(email, senha)], [Notice(Error, BadCredentials)])
    ensures Status(st, faults, SignIn(email, senha)) == Some(Unavailable) ==>
      o == Outcome(s, st, [SignIn(email, senha)], [Notice(Error, LoginFailed)])
    ensures Status(st, faults, SignIn(email, senha)).Some? ==> o.state == s && o.store == st
    ensures Status(st, faults, SignIn(email, senha)).None? ==>
      OnlyDataChanged(SetState(s, LoginPatch(u)), o.state) && o.store.session == Some(email)
  {
    var a := SignIn(email, senha);
    match Status(st, faults, a)
    case Some(f) =>
      Outcome(s, st, [a], [Notice(Error, if f == UserNotFound || f == WrongPassword then BadCredentials else LoginFailed)])
    case None =>
      After([a], [], LoadData(SetState(s, LoginPatch(u)), Effect(st, a), faults))
  }

  /**
   * A login whose credentials match a stored account and the credential
   * service, with the backend answering, ends logged in as that account with
   * everything loaded and in step with the store.
   */
  lemma LoginSucceeds(s: AppState, st: Store, u: User)
    requires u.email != "" && u.senha != ""
    requires FirstWithEmail(st.users, u.email) == Some(u)
    requires u.email in st.credentials && st.credentials[u.email] == u.senha
    requires st.content.Some?
    ensures var o := Login(s, st, {}, u.email, u.senha);
            o.state.currentUser == Some(u) && o.state.dataLoaded && InSync(o.state, o.store)
            && o.notices == []
  {
  }

  /**
   * A record whose stored password matches, but whose email has no matching
   * credential, is refused by the credential service and reported as a bad
   * email or password, with nothing changed.
   */
  lemma LoginCredentialMismatch(s: AppState, st: Store, u: User)
    requires u.email != "" && u.senha != ""
    requires FirstWithEmail(st.users, u.email) == Some(u)
    requires u.email !in st.credentials || st.credentials[u.email] != u.senha
    ensures Login(s, st, {}, u.email, u.senha) ==
            Outcome(s, st, [FindUserByEmail(u.email), SignIn(u.email, u.senha)], [Notice(Error, BadCredentials)])
  {
  }

  /** A wrong password is refused before any credential call, whoever is in the store. */
  lemma LoginWrongPassword(s: AppState, st: Store, faults: set<Call>, u: User, senha: string)
    requires FirstWithEmail(st.users, u.email) == Some(u) && u.senha != senha
    requires u.email != "" && senha != "" && FindUserByEmail(u.email) !in faults
    ensures Login(s, st, faults, u.email, senha) ==
            Outcome(s, st, [FindUserByEmail(u.email)], [Notice(Error, IncorrectPassword)])
  {
  }

  /**
   * `handleLogout`: end the credential session (a failure is only logged) and
   * reset the session fields. Loaded users and content, and the new-broker
   * name, stay as they were.
   */
  function Logout(s: AppState, st: Store, faults: set<Call>): (o: Outcome)
    ensures o.state == s.(currentUser := None, email := "", senha := "", selected := None, query := "",
                          currentView := Home, dataLoaded := false)
    ensures o.calls == [SignOut] && o.notices == []
    ensures o.store.users == st.users && o.store.content == st.content && o.store.credentials == st.credentials
    ensures SignOut !in faults ==> o.store.session == None
    ensures SignOut in faults ==> o.store == st
  {
    var st1 := if Status(st, faults, SignOut).None? then Effect(st, SignOut) else st;
    var reset := Keep.(currentUser := Some(None), email := Some(""), senha := Some(""), selected := Some(None),
                       query := Some(""), currentView := Some(Home), dataLoaded := Some(false));
    Outcome(SetState(s, reset), st1, [SignOut], [])
  }

  /** After logging out, a reload does nothing: no user, no backend calls. */
  lemma LogoutThenReload(s: AppState, st: Store, faults: set<Call>)
    ensures var o := Logout(s, st, faults);
            LoadData(o.state, o.store, faults) == Outcome(o.state, o.store, [], [])
  {
  }

  /** `state.users.some(u => u.email === email)`. */
  predicate EmailLoaded(users: seq<User>, email: string) {
    FirstWithEmail(users, email).Some?
  }

  /** The document `addCorretor` writes: a broker with the given fields, under the id the store assigns. */
  function NewCorretor(id: string, nome: string, email: string, senha: string): User {
    User(id, nome, email, senha, CORRETOR)
  }

  /**
   * `addCorretor`: refuse missing fields and emails already among the loaded
   * users without calling the backend. Otherwise create the credential first
   * and write the broker document only once that succeeded; after a full
   * success, reload and then clear the new-broker form fields.
   * `id` stands for the id the store assigns to the new document.
   */
  function AddCorretor(s: AppState, st: Store, faults: set<Call>, id: string, nome: string, email: string, senha: string): (o: Outcome)
    ensures nome == "" || email == "" || senha == "" ==>
      o == Outcome(s, st, [], [Notice(Warning, FillAllFields)])
    ensures nome != "" && email != "" && senha != "" && EmailLoaded(s.users, email) ==>
      o == Outcome(s, st, [], [Notice(Error, EmailAlreadyRegistered)])
    ensures o.calls != [] ==> o.calls[0] == CreateCredential(email, senha)
    ensures OnlyDataChanged(s, o.state.(newNome := s.newNome, newEmail := s.newEmail, newSenha := s.newSenha))
    ensures (nome != "" && email != "" && senha != "" && !EmailLoaded(s.users, email)
             && Status(st, faults, CreateCredential(email, senha)) == Some(EmailInUse)) ==>
      o == Outcome(s, st, [CreateCredential(email, senha)], [Notice(Error, EmailTaken)])
    ensures (nome != "" && email != "" && senha != "" && !EmailLoaded(s.users, email)
             && Status(st, faults, CreateCredential(email, senha)) == Some(Unavailable)) ==>
      o == Outcome(s, st, [CreateCredential(email, senha)], [Notice(Error, CreateFailed)])
    ensures AddUserDoc(NewCorretor(id, nome, email, senha)) in o.calls ==>
      Status(st, faults, CreateCredential(email, senha)).None?
    ensures o.store.users == st.users || o.store.users == st.users + [NewCorretor(id, nome, email, senha)]
    ensures o.store.users != st.users ==>
      nome != "" && email != "" && senha != "" && !EmailLoaded(s.users, email)
      && email !in st.credentials && o.store.credentials == st.credentials[email := senha]
    ensures o.store.users != st.users ==> o.state.newNome == "" && o.state.newEmail == "" && o.state.newSenha == ""
    ensures (nome != "" && email != "" && senha != "" && !EmailLoaded(s.users, email)
             && Status(st, faults, CreateCredential(email, senha)).None?
             && AddUserDoc(NewCorretor(id, nome, email, senha)) in faults) ==>
      o.state == s && o.store.users == st.users && o.store.credentials == st.credentials[email := senha]
      && o.calls == [CreateCredential(email, senha), AddUserDoc(NewCorretor(id, nome, email, senha))]
      && o.notices == [Notice(Error, CreateFailed)]
    ensures o.store.content == st.content || (st.content.None? && o.store.content == Some(EmptyContent))
  {
    if nome == "" || email == "" || senha == "" then Outcome(s, st, [], [Notice(Warning, FillAllFields)])
    else if EmailLoaded(s.users, email) then Outcome(s, st, [], [Notice(Error, EmailAlreadyRegistered)])
    else
      var cred := CreateCredential(email, senha);
      match Status(st, faults, cred)
      case Some(f) => Outcome(s, st, [cred], [Notice(Error, if f == EmailInUse then EmailTaken else CreateFailed)])
      case None => After([cred], [], StoreCorretor(s, Effect(st, cred), faults, NewCorretor(id, nome, email, senha)))
  }

  /**
   * The part of `addCorretor` after the credential exists: write the broker
   * document; once it is written, announce it, reload, and clear the form.
   */
  function StoreCorretor(s: AppState, st: Store, faults: set<Call>, u: User): (o: Outcome)
    ensures o.calls != [] && o.calls[0] == AddUserDoc(u) && o.calls[1..] <= [ReadUsers, ReadContent, CreateContent]
    ensures o.store.credentials == st.credentials && o.store.session == st.session
    ensures o.store.content == st.content || (st.content.None? && o.store.content == Some(EmptyContent))
    ensures OnlyDataChanged(s, o.state.(newNome := s.newNome, newEmail := s.newEmail, newSenha := s.newSenha))
    ensures Status(st, faults, AddUserDoc(u)).Some? ==> o == Outcome(s, st, [AddUserDoc(u)], [Notice(Error, CreateFailed)])
    ensures Status(st, faults, AddUserDoc(u)).None? ==>
      && o.store.users == st.users + [u]
      && o.state.newNome == "" && o.state.newEmail == "" && o.state.newSenha == ""
      && |o.notices| >= 1 && o.notices[0] == Notice(Success, CorretorCreated(u.nome))
      && o.notices[1..] <= [Notice(Error, LoadFailed)]
      && (s.currentUser.Some? && LoadSucceeds(o.store, faults) ==> o.state.users == o.store.users)
  {
    var doc := AddUserDoc(u);
    if Status(st, faults, doc).Some? then Outcome(s, st, [doc], [Notice(Error, CreateFailed)])
    else
      var loaded := LoadData(s, Effect(st, doc), faults);
      var cleared := SetState(loaded.state, Keep.(newNome := Some(""), newEmail := Some(""), newSenha := Some("")));
      Outcome(cleared, loaded.store, [doc] + loaded.calls, [Notice(Success, CorretorCreated(u.nome))] + loaded.notices)
  }

  /** A failed creation issues no reload: the calls stop at the credential or at the document. */
  lemma AddCorretorFailureNoReload(s: AppState, st: Store, faults: set<Call>, id: string, nome: string, email: string, senha: string)
    ensures var o := AddCorretor(s, st, faults, id, nome, email, senha);
            Notice(Error, EmailTaken) in o.notices || Notice(Error, CreateFailed) in o.notices ==>
            o.state == s && o.calls <= [CreateCredential(email, senha), AddUserDoc(NewCorretor(id, nome, email, senha))]
  {
  }

  /** An email that already has a credential never gets a second broker document. */
  lemma AddCorretorExistingCredential(s: AppState, st: Store, faults: set<Call>, id: string, nome: string, email: string, senha: string)
    requires email in st.credentials
    ensures AddCorretor(s, st, faults, id, nome, email, senha).store.users == st.users
  {
  }

  /**
   * With a new email and everything answering, the broker document is
   * appended after the credential, the form is cleared, and the state holds
   * the reloaded users.
   */
  lemma AddCorretorSucceeds(s: AppState, st: Store, id: string, nome: string, email: string, senha: string)
    requires nome != "" && email != "" && senha != "" && !EmailLoaded(s.users, email)
    requires email !in st.credentials
    ensures var o := AddCorretor(s, st, {}, id, nome, email, senha);
            && o.store.users == st.users + [NewCorretor(id, nome, email, senha)]
            && |o.calls| >= 2 && o.calls[..2] == [CreateCredential(email, senha), AddUserDoc(NewCorretor(id, nome, email, senha))]
            && o.state.newNome == "" && o.state.newEmail == "" && o.state.newSenha == ""
            && (s.currentUser.Some? ==> o.state.users == o.store.users)
  {
  }

  /**
   * An email that has a credential but is missing from the loaded users (a
   * stale list, or a deleted broker whose credential stayed) passes the local
   * check and is refused by the credential service with its own message.
   */
  lemma AddCorretorEmailInUse(s: AppState, st: Store, faults: set<Call>, id: string, nome: string, email: string, senha: string)
    requires nome != "" && email != "" && senha != ""
    requires !EmailLoaded(s.users, email) && email in st.credentials
    requires CreateCredential(email, senha) !in faults
    ensures AddCorretor(s, st, faults, id, nome, email, senha) ==
            Outcome(s, st, [CreateCredential(email, senha)], [Notice(Error, EmailTaken)])
  {
  }

  /**
   * When the loaded users are the stored ones, `addCorretor` keeps emails
   * unique in the store, and keeps ids unique when the store's new id is fresh.
   */
  lemma AddCorretorKeepsUnique(s: AppState, st: Store, faults: set<Call>, id: string, nome: string, email: string, senha: string)
    requires s.users == st.users
    requires UniqueEmails(st.users) && UniqueIds(st.users)
    requires forall i :: 0 <= i < |st.users| ==> st.users[i].id != id
    ensures var o := AddCorretor(s, st, faults, id, nome, email, senha);
            UniqueEmails(o.store.users) && UniqueIds(o.store.users)
  {
    var o := AddCorretor(s, st, faults, id, nome, email, senha);
    if o.store.users != st.users {
      var u := NewCorretor(id, nome, email, senha);
      assert forall i :: 0 <= i < |st.users| ==> st.users[i].email != email;
      AppendUnique(st.users, u);
    }
  }

  /** Appending a document whose id and email are new keeps both unique. */
  lemma AppendUnique(users: seq<User>, u: User)
    requires UniqueEmails(users) && UniqueIds(users)
    requires forall i :: 0 <= i < |users| ==> users[i].id != u.id && users[i].email != u.email
    ensures UniqueEmails(users + [u]) && UniqueIds(users + [u])
  {
    var r := users + [u];
    forall i, j | 0 <= i < j < |r|
      ensures r[i].email != r[j].email && r[i].id != r[j].id
    {
      assert r[i] == users[i];
    }
  }

  /**
   * Creating the same broker email twice: the first creation succeeds and is
   * reloaded, so the second is refused locally, without any backend call,
   * and the users collection keeps its length.
   */
  lemma DuplicateCreationRefused(s: AppState, st: Store, id1: string, id2: string,
                                 nome: string, nome2: string, email: string, senha: string, senha2: string)
    requires s.currentUser.Some?
    requires nome != "" && nome2 != "" && email != "" && senha != "" && senha2 != ""
    requires !EmailLoaded(s.users, email) && email !in st.credentials
    ensures var o1 := AddCorretor(s, st, {}, id1, nome, email, senha);
            var o2 := AddCorretor(o1.state, o1.store, {}, id2, nome2, email, senha2);
            && EmailLoaded(o1.store.users, email)
            && o2.calls == [] && o2.store == o1.store && |o2.store.users| == |st.users| + 1
            && o2.notices == [Notice(Error, EmailAlreadyRegistered)]
  {
    var o1 := AddCorretor(s, st, {}, id1, nome, email, senha);
    var u := NewCorretor(id1, nome, email, senha);
    assert o1.store.users[|st.users|] == u;
  }

  /**
   * `removeCorretor`: the bootstrap administrator is refused outright; an
   * email that is not among the loaded users, or whose record has no id, is
   * refused without a backend call. Otherwise the one document with that
   * user's id is deleted and the data reloaded. The credential is left in place.
   */
  function RemoveCorretor(s: AppState, st: Store, faults: set<Call>, email: string): (o: Outcome)
    ensures email == PROTECTED_EMAIL ==> o == Outcome(s, st, [], [Notice(Error, CannotRemoveMain)])
    ensures FirstWithEmail(s.users, email).None? || FirstWithEmail(s.users, email).value.id == "" ==>
      o.calls == [] && o.state == s && o.store == st
    ensures o.store.credentials == st.credentials && o.store.session == st.session
    ensures OnlyDataChanged(s, o.state)
    ensures o.calls != [] ==> o.calls[1..] <= [ReadUsers, ReadContent, CreateContent]
    ensures o.calls != [] ==>
      email != PROTECTED_EMAIL && FirstWithEmail(s.users, email).Some?
      && o.calls[0] == DeleteUserDoc(FirstWithEmail(s.users, email).value.id)
      && FirstWithEmail(s.users, email).value.id != ""
    ensures o.store.users != st.users ==>
      o.calls != [] && o.store.users == WithoutId(st.users, FirstWithEmail(s.users, email).value.id)
    ensures (email != PROTECTED_EMAIL && FirstWithEmail(s.users, email).Some?
             && FirstWithEmail(s.users, email).value.id != "" && faults == {}) ==>
      o.store.users == WithoutId(st.users, FirstWithEmail(s.users, email).value.id)
      && (s.currentUser.Some? ==> o.state.users == o.store.users)
    ensures email != PROTECTED_EMAIL && (FirstWithEmail(s.users, email).None? || FirstWithEmail(s.users, email).value.id == "") ==>
      o == Outcome(s, st, [], [Notice(Error, UserNotInDatabase)])
    ensures (email != PROTECTED_EMAIL && FirstWithEmail(s.users, email).Some? && FirstWithEmail(s.users, email).value.id != ""
             && DeleteUserDoc(FirstWithEmail(s.users, email).value.id) in faults) ==>
      o == Outcome(s, st, [DeleteUserDoc(FirstWithEmail(s.users, email).value.id)], [Notice(Error, RemoveFailed)])
    ensures (email != PROTECTED_EMAIL && FirstWithEmail(s.users, email).Some? && FirstWithEmail(s.users, email).value.id != ""
             && DeleteUserDoc(FirstWithEmail(s.users, email).value.id) !in faults) ==>
      o.store.users == WithoutId(st.users, FirstWithEmail(s.users, email).value.id)
      && |o.notices| >= 1 && o.notices[0] == Notice(Info, CorretorRemoved(email))
  {
    if email == PROTECTED_EMAIL then Outcome(s, st, [], [Notice(Error, CannotRemoveMain)])
    else match FirstWithEmail(s.users, email)
      case None => Outcome(s, st, [], [Notice(Error, UserNotInDatabase)])
      case Some(u) =>
        if u.id == "" then Outcome(s, st, [], [Notice(Error, UserNotInDatabase)])
        else DeleteAndReload(s, st, faults, email, u.id)
  }

  /** The `try` block of `removeCorretor`: delete the document by id, then reload. */
  function DeleteAndReload(s: AppState, st: Store, faults: set<Call>, email: string, id: string): (o: Outcome)
    ensures o.calls != [] && o.calls[0] == DeleteUserDoc(id)
    ensures OnlyDataChanged(s, o.state)
    ensures o.calls != [] ==> o.calls[1..] <= [ReadUsers, ReadContent, CreateContent]
    ensures o.store.credentials == st.credentials && o.store.session == st.session
    ensures o.store.users == st.users || o.store.users == WithoutId(st.users, id)
    ensures faults == {} ==>
      o.store.users == WithoutId(st.users, id) && (s.currentUser.Some? ==> o.state.users == o.store.users)
    ensures DeleteUserDoc(id) in faults ==> o == Outcome(s, st, [DeleteUserDoc(id)], [Notice(Error, RemoveFailed)])
    ensures DeleteUserDoc(id) !in faults ==>
      && o.store.users == WithoutId(st.users, id)
      && |o.notices| >= 1 && o.notices[0] == Notice(Info, CorretorRemoved(email))
      && o.notices[1..] <= [Notice(Error, LoadFailed)]
      && (s.currentUser.Some? && LoadSucceeds(o.store, faults) ==> o.state.users == o.store.users)
  {
    var del := DeleteUserDoc(id);
    if Status(st, faults, del).Some? then Outcome(s, st, [del], [Notice(Error, RemoveFailed)])
    else After([del], [Notice(Info, CorretorRemoved(email))], LoadData(s, Effect(st, del), faults))
  }

  /**
   * With unique ids in the store and a target that is stored, a successful
   * removal deletes exactly one document, and nothing but it.
   */
  lemma RemoveCorretorDeletesOne(s: AppState, st: Store, email: string)
    requires email != PROTECTED_EMAIL && FirstWithEmail(s.users, email).Some?
    requires FirstWithEmail(s.users, email).value.id != ""
    requires UniqueIds(st.users) && FirstWithEmail(s.users, email).value in st.users
    ensures var o := RemoveCorretor(s, st, {}, email);
            var gone := FirstWithEmail(s.users, email).value;
            |o.store.users| == |st.users| - 1 && gone !in o.store.users
            && forall v :: v in st.users && v.id != gone.id ==> v in o.store.users
  {
    var gone := FirstWithEmail(s.users, email).value;
    var i :| 0 <= i < |st.users| && st.users[i] == gone;
    WithoutIdRemovesOne(st.users, gone.id);
  }
}

=== FILE: backend.dfy ===
/**
 * An in-memory stand-in for the remote store the panel talks to: the `users`
 * collection, the singleton `content/sharedContent` document, and the
 * credential service with its current session. A call either fails, and then
 * changes nothing, or succeeds with the effect given by `Effect`. Which calls
 * fail is not up to the panel: every operation receives the set of calls the
 * backend will refuse (`faults`) on top of the refusals the backend's own data
 * dictates (a missing document, an unknown credential, a taken email).
 */
module Backend {
  import opened Base
  import opened State

  /** The stored content document; a field may be missing, which the panel reads as `{}`. */
  datatype ContentDoc = ContentDoc(faqs: Option<FaqMap>, materiais: Option<MaterialMap>)

  /** `{ faqs: {}, materiais: {} }`, written when the document is found missing. */
  const EmptyContent: ContentDoc := ContentDoc(Some(map[]), Some(map[]))

  datatype Store = Store(
    users: seq<User>,
    content: Option<ContentDoc>,
    credentials: map<string, string>,
    session: Option<string>)

  /** The top-level field an `update` call on the content document replaces. */
  datatype ContentUpdate = SetFaqs(faqs: FaqMap) | SetMateriais(materiais: MaterialMap)

  /** A backend call, with the arguments the panel passes. */
  datatype Call =
    | ReadUsers                                  // db.collection('users').get()
    | FindUserByEmail(email: string)             // users where email == _ limit 1
    | ReadContent                                // content/sharedContent get()
    | CreateContent                              // content/sharedContent set(empty)
    | UpdateContent(update: ContentUpdate)       // content/sharedContent update(_)
    | SignIn(email: string, senha: string)       // signInWithEmailAndPassword
    | SignOut                                    // signOut
    | CreateCredential(email: string, senha: string) // createUserWithEmailAndPassword
    | AddUserDoc(user: User)                     // users add(_), id assigned by the store
    | DeleteUserDoc(id: string)                  // users doc(id).delete()

  /** Why a call failed: an outage, a missing document, or one of the credential errors. */
  datatype Failure = Unavailable | NotFound | UserNotFound | WrongPassword | EmailInUse

  /** The first user with the given email, in collection order (`find`, or a `limit(1)` query). */
  function FirstWithEmail(users: seq<User>, email: string): (r: Option<User>)
    ensures r.None? <==> forall i :: 0 <= i < |users| ==> users[i].email != email
    ensures r.Some? ==> exists i :: 0 <= i < |users| && users[i] == r.value && r.value.email == email
                                    && forall j :: 0 <= j < i ==> users[j].email != email
  {
    if users == [] then None
    else if users[0].email == email then Some(users[0])
    else FirstWithEmail(users[1..], email)
  }

  /** The collection after deleting every document with the given id. */
  function WithoutId(users: seq<User>, id: string): (r: seq<User>)
    ensures |r| <= |users|
    ensures forall u :: u in r <==> u in users && u.id != id
  {
    if users == [] then []
    else (if users[0].id == id then [] else [users[0]]) + WithoutId(users[1..], id)
  }

  /** Document ids are unique within the collection, as the store assigns them. */
  ghost predicate UniqueIds(users: seq<User>) {
    forall i, j :: 0 <= i < j < |users| ==> users[i].id != users[j].id
  }

  /** No two documents carry the same email. */
  ghost predicate UniqueEmails(users: seq<User>) {
    forall i, j :: 0 <= i < j < |users| ==> users[i].email != users[j].email
  }

  /** With unique ids, deleting a present id removes exactly one document. */
  lemma {:induction false} WithoutIdRemovesOne(users: seq<User>, id: string)
    requires UniqueIds(users)
    requires exists i :: 0 <= i < |users| && users[i].id == id
    ensures |WithoutId(users, id)| == |users| - 1
  {
    if users[0].id == id {
      WithoutIdAbsent(users[1..], id);
    } else {
      var i :| 0 <= i < |users| && users[i].id == id;
      assert users[1..][i - 1].id == id;
      WithoutIdRemovesOne(users[1..], id);
    }
  }

  /** Deleting an id that no document carries leaves the collection as it was. */
  lemma {:induction false} WithoutIdAbsent(users: seq<User>, id: string)
    requires forall i :: 0 <= i < |users| ==> users[i].id != id
    ensures WithoutId(users, id) == users
  {
    if users != [] {
      WithoutIdAbsent(users[1..], id);
    }
  }

  /** A document whose id no other document shares can head a collection with unique ids. */
  lemma ConsUniqueIds(x: User, rest: seq<User>)
    requires UniqueIds(rest)
    requires forall u :: u in rest ==> u.id != x.id
    ensures UniqueIds([x] + rest)
  {
    var r := [x] + rest;
    forall i, j | 0 <= i < j < |r|
      ensures r[i].id != r[j].id
    {
      assert r[j] == rest[j - 1];
      if i > 0 {
        assert r[i] == rest[i - 1];
      }
    }
  }

  /** A document whose email no other document shares can head a collection with unique emails. */
  lemma ConsUniqueEmails(x: User, rest: seq<User>)
    requires UniqueEmails(rest)
    requires forall u :: u in rest ==> u.email != x.email
    ensures UniqueEmails([x] + rest)
  {
    var r := [x] + rest;
    forall i, j | 0 <= i < j < |r|
      ensures r[i].email != r[j].email
    {
      assert r[j] == rest[j - 1];
      if i > 0 {
        assert r[i] == rest[i - 1];
      }
    }
  }

  /** Deleting keeps the survivors in their order, so unique ids and emails stay unique. */
  lemma {:induction false} WithoutIdKeepsUnique(users: seq<User>, id: string)
    ensures UniqueIds(users) ==> UniqueIds(WithoutId(users, id))
    ensures UniqueEmails(users) ==> UniqueEmails(WithoutId(users, id))
  {
    if users != [] {
      var tail := users[1..];
      assert UniqueIds(users) ==> UniqueIds(tail);
      assert UniqueEmails(users) ==> UniqueEmails(tail);
      WithoutIdKeepsUnique(tail, id);
      var rest := WithoutId(tail, id);
      if users[0].id != id {
        assert WithoutId(users, id) == [users[0]] + rest;
        if UniqueIds(users) {
          assert forall u :: u in tail ==> u.id != users[0].id;
          ConsUniqueIds(users[0], rest);
        }
        if UniqueEmails(users) {
          assert forall u :: u in tail ==> u.email != users[0].email;
          ConsUniqueEmails(users[0], rest);
        }
      }
    }
  }

  /** The `faqs` field as the panel reads it (`contentData.faqs || {}`). */
  function FaqsOf(d: ContentDoc): FaqMap {
    d.faqs.GetOr(map[])
  }

  /** The `materiais` field as the panel reads it (`contentData.materiais || {}`). */
  function MateriaisOf(d: ContentDoc): MaterialMap {
    d.materiais.GetOr(map[])
  }

  /**
   * `update({ faqs })` or `update({ materiais })`: reading the document back
   * gives the written map in the named field and the old value of the other.
   */
  function Apply(d: ContentDoc, u: ContentUpdate): (r: ContentDoc)
    ensures u.SetFaqs? ==> FaqsOf(r) == u.faqs && r.faqs.Some? && r.materiais == d.materiais
    ensures u.SetMateriais? ==> MateriaisOf(r) == u.materiais && r.materiais.Some? && r.faqs == d.faqs
  {
    match u
    case SetFaqs(m) => d.(faqs := Some(m))
    case SetMateriais(m) => d.(materiais := Some(m))
  }

  /**
   * Updates of one field overwrite each other (the last write wins), and
   * updates of different fields commute.
   */
  lemma ApplyLaws(d: ContentDoc, m: FaqMap, m2: FaqMap, n: MaterialMap, n2: MaterialMap)
    ensures Apply(Apply(d, SetFaqs(m)), SetFaqs(m2)) == Apply(d, SetFaqs(m2))
    ensures Apply(Apply(d, SetMateriais(n)), SetMateriais(n2)) == Apply(d, SetMateriais(n2))
    ensures Apply(Apply(d, SetFaqs(m)), SetMateriais(n)) == Apply(Apply(d, SetMateriais(n)), SetFaqs(m))
  {
  }

  /** Whether the backend refuses call `c`, and why. */
  function Status(st: Store, faults: set<Call>, c: Call): Option<Failure> {
    if c in faults then Some(Unavailable)
    else match c
      case UpdateContent(_) => if st.content.None? then Some(NotFound) else None
      case SignIn(e, p) =>
        if e !in st.credentials then Some(UserNotFound)
        else if st.credentials[e] != p then Some(WrongPassword)
        else None
      case CreateCredential(e, _) => if e in st.credentials then Some(EmailInUse) else None
      case _ => None
  }

  /** The store after call `c` succeeds. Reads change nothing. */
  function Effect(st: Store, c: Call): Store {
    match c
    case CreateContent => st.(content := Some(EmptyContent))
    case UpdateContent(u) =>
      (match st.content
       case Some(d) => st.(content := Some(Apply(d, u)))
       case None => st)
    case SignIn(e, _) => st.(session := Some(e))
    case SignOut => st.(session := None)
    case CreateCredential(e, p) => st.(credentials := st.credentials[e := p])
    case AddUserDoc(u) => st.(users := st.users + [u])
    case DeleteUserDoc(id) => st.(users := WithoutId(st.users, id))
    case _ => st
  }

  /**
   * The backend's own refusals: only an update of a missing document, a
   * sign-in with an unknown email or a wrong password, and creating a
   * credential for an email that has one. Outside `faults`, everything else succeeds.
   */
  lemma StatusSpec(st: Store, faults: set<Call>, c: Call)
    ensures c in faults ==> Status(st, faults, c) == Some(Unavailable)
    ensures c !in faults && Status(st, faults, c).Some? ==>
      (c.UpdateContent? && st.content.None? && Status(st, faults, c) == Some(NotFound))
      || (c.SignIn? && (c.email !in st.credentials || st.credentials[c.email] != c.senha))
      || (c.CreateCredential? && c.email in st.credentials && Status(st, faults, c) == Some(EmailInUse))
  {
  }

  /** A successful sign-in means the stored credential matches exactly. */
  lemma SignInNeedsCredential(st: Store, faults: set<Call>, email: string, senha: string)
    ensures Status(st, faults, SignIn(email, senha)).None? <==>
      SignIn(email, senha) !in faults && email in st.credentials && st.credentials[email] == senha
  {
  }
}

=== FILE: base.dfy ===
/** Small value wrappers shared by the rest of the model. */
module Base {

  /** A value that may be missing: JavaScript's `null`/`undefined` next to a present value. */
  datatype Option<+T> = None | Some(value: T) {

    /** The wrapped value, or `default` when there is none (`x || default` for objects). */
    function GetOr(default: T): T {
      match this
      case Some(v) => v
      case None => default
    }
  }

  /** `m[k] || []`: the sequence stored under `k`, or the empty sequence when `k` is absent. */
  function Lookup<K, T>(m: map<K, seq<T>>, k: K): seq<T> {
    if k in m then m[k] else []
  }
}

=== FILE: content.dfy ===
/**
 * The pure part of the content mutations: how `addFaq`/`addMaterial` extend an
 * operator's list, how `removeFaq`/`removeMaterial` filter it by position, and
 * how `addMaterial` normalises a link.
 */
module Content {
  import opened Base
  import opened Text

  /**
   * `after` is `before` with `op`'s list (empty when absent) extended by
   * exactly `e` at the end, and every other operator's list untouched.
   */
  ghost predicate AppendedTo<T>(before: map<string, seq<T>>, after: map<string, seq<T>>, op: string, e: T) {
    && after.Keys == before.Keys + {op}
    && after[op] == Lookup(before, op) + [e]
    && forall k :: k in before && k != op ==> after[k] == before[k]
  }

  /**
   * `after` is `before` with position `idx` dropped from `op`'s list (empty
   * when absent), the rest of that list in order, every other list untouched.
   */
  ghost predicate RemovedFrom<T>(before: map<string, seq<T>>, after: map<string, seq<T>>, op: string, idx: int) {
    && after.Keys == before.Keys + {op}
    && (0 <= idx < |Lookup(before, op)| ==> after[op] == Lookup(before, op)[..idx] + Lookup(before, op)[idx + 1..])
    && (!(0 <= idx < |Lookup(before, op)|) ==> after[op] == Lookup(before, op))
    && forall k :: k in before && k != op ==> after[k] == before[k]
  }

  /** `{ ...m }` with `op`'s list (or `[]` when absent) extended by `e` at the end. */
  function Append<T>(m: map<string, seq<T>>, op: string, e: T): (r: map<string, seq<T>>)
    ensures AppendedTo(m, r, op, e)
  {
    m[op := Lookup(m, op) + [e]]
  }

  /** `s.filter((_, i) => i !== idx)`, visiting positions from `from` onwards. */
  function DropFrom<T>(s: seq<T>, idx: int, from: int): seq<T>
    decreases |s|
  {
    if s == [] then []
    else (if from == idx then [] else [s[0]]) + DropFrom(s[1..], idx, from + 1)
  }

  /** `s.filter((_, i) => i !== idx)`. */
  function DropIndex<T>(s: seq<T>, idx: int): seq<T> {
    DropFrom(s, idx, 0)
  }

  /** Positions before `from` are never dropped, so an index below `from` keeps the whole list. */
  lemma {:induction false} DropFromOutside<T>(s: seq<T>, idx: int, from: int)
    requires !(from <= idx < from + |s|)
    ensures DropFrom(s, idx, from) == s
  {
    if s != [] {
      DropFromOutside(s[1..], idx, from + 1);
      assert [s[0]] + s[1..] == s;
    }
  }

  lemma {:induction false} DropFromInside<T>(s: seq<T>, idx: int, from: int)
    requires from <= idx < from + |s|
    ensures DropFrom(s, idx, from) == s[..idx - from] + s[idx - from + 1..]
  {
    if from == idx {
      DropFromOutside(s[1..], idx, from + 1);
      assert s[..0] + s[1..] == s[1..];
    } else {
      var k := idx - from;
      var rest := s[1..];
      assert DropFrom(s, idx, from) == [s[0]] + DropFrom(rest, idx, from + 1);
      DropFromInside(rest, idx, from + 1);
      assert rest[..k - 1] == s[1..k];
      assert rest[k..] == s[k + 1..];
      assert [s[0]] + s[1..k] == s[..k];
      assert [s[0]] + (s[1..k] + s[k + 1..]) == s[..k] + s[k + 1..];
    }
  }

  lemma DropFromSpec<T>(s: seq<T>, idx: int, from: int)
    ensures from <= idx < from + |s| ==> DropFrom(s, idx, from) == s[..idx - from] + s[idx - from + 1..]
    ensures !(from <= idx < from + |s|) ==> DropFrom(s, idx, from) == s
  {
    if from <= idx < from + |s| {
      DropFromInside(s, idx, from);
    } else {
      DropFromOutside(s, idx, from);
    }
  }

  /**
   * Filtering by position removes exactly the element at `idx`, keeping the
   * others in order; an index outside the list removes nothing.
   */
  lemma DropIndexSpec<T>(s: seq<T>, idx: int)
    ensures 0 <= idx < |s| ==> DropIndex(s, idx) == s[..idx] + s[idx + 1..]
    ensures 0 <= idx < |s| ==> |DropIndex(s, idx)| == |s| - 1
    ensures !(0 <= idx < |s|) ==> DropIndex(s, idx) == s
  {
    DropFromSpec(s, idx, 0);
  }

  /** `{ ...m, [op]: (m[op] || []).filter((_, i) => i !== idx) }`. */
  function RemoveEntry<T>(m: map<string, seq<T>>, op: string, idx: int): map<string, seq<T>> {
    m[op := DropIndex(Lookup(m, op), idx)]
  }

  /**
   * The written map differs from the old one only under `op`, whose list loses
   * just position `idx`; an absent operator ends up with an empty list.
   */
  lemma RemoveEntrySpec<T>(m: map<string, seq<T>>, op: string, idx: int)
    ensures RemovedFrom(m, RemoveEntry(m, op, idx), op, idx)
    ensures op !in m ==> RemoveEntry(m, op, idx)[op] == []
  {
    DropIndexSpec(Lookup(m, op), idx);
  }

  /** Removing the position just appended undoes the append. */
  lemma RemoveUndoesAppend<T>(m: map<string, seq<T>>, op: string, e: T)
    ensures RemoveEntry(Append(m, op, e), op, |Lookup(m, op)|) == m[op := Lookup(m, op)]
    ensures op in m ==> RemoveEntry(Append(m, op, e), op, |Lookup(m, op)|) == m
    ensures op !in m ==> RemoveEntry(Append(m, op, e), op, |Lookup(m, op)|) == m[op := []]
  {
    var before := Lookup(m, op);
    var grown := Append(m, op, e);
    DropIndexSpec(grown[op], |before|);
    assert Lookup(grown, op) == before + [e];
    assert (before + [e])[..|before|] == before;
    assert (before + [e])[|before| + 1..] == [];
    assert DropIndex(Lookup(grown, op), |before|) == before;
    assert grown[op := before] == m[op := before];
  }

  const HTTP: string := "http://"
  const HTTPS: string := "https://"

  /** The link as `addMaterial` stores it: trimmed, with `https://` added to a bare address. */
  function NormalizeLink(link: string): string {
    var t := Trim(link);
    if t != "" && !(HTTP <= t) && !(HTTPS <= t) then HTTPS + t else t
  }

  /**
   * A stored link is empty only when the input was blank; otherwise it starts
   * with `http://` or `https://`. The prefix test is case-sensitive, and an
   * address that already has one of the two schemes is kept as trimmed.
   */
  lemma NormalizeLinkSpec(link: string)
    ensures NormalizeLink(link) == "" <==> AllSpace(link)
    ensures NormalizeLink(link) != "" ==> HTTP <= NormalizeLink(link) || HTTPS <= NormalizeLink(link)
    ensures Trimmed(NormalizeLink(link))
    ensures HTTP <= Trim(link) || HTTPS <= Trim(link) || Trim(link) == "" ==> NormalizeLink(link) == Trim(link)
    ensures NormalizeLink(link) == Trim(link) || NormalizeLink(link) == HTTPS + Trim(link)
  {
    TrimSpec(link);
    var t := Trim(link);
    if t != "" && !(HTTP <= t) && !(HTTPS <= t) {
      var r := HTTPS + t;
      assert r[0] == 'h';
      assert r[|r| - 1] == t[|t| - 1];
      assert HTTPS <= r;
    }
  }

  /** Normalising an already stored link changes nothing. */
  lemma NormalizeLinkIdempotent(link: string)
    ensures NormalizeLink(NormalizeLink(link)) == NormalizeLink(link)
  {
    NormalizeLinkSpec(link);
    var r := NormalizeLink(link);
    TrimOfTrimmed(r);
  }

  /** `addMaterial` adds `https://` to `example.com/doc`. */
  lemma NormalizeBareAddress()
    ensures NormalizeLink("example.com/doc") == "https://example.com/doc"
  {
    var t := "example.com/doc";
    TrimOfTrimmed(t);
    assert !(HTTP <= t) by { assert t[0] != HTTP[0]; }
    assert !(HTTPS <= t) by { assert t[0] != HTTPS[0]; }
  }

  /** An upper-case scheme is not recognised, so `https://` is added in front of it. */
  lemma NormalizeIsCaseSensitive()
    ensures NormalizeLink("HTTP://x.com") == "https://HTTP://x.com"
  {
    var t := "HTTP://x.com";
    TrimOfTrimmed(t);
    assert !(HTTP <= t) by { assert t[0] != HTTP[0]; }
    assert !(HTTPS <= t) by { assert t[0] != HTTPS[0]; }
  }
}

=== FILE: events.dfy ===
/**
 * What a click or keystroke on the rendered page does: the inline `onclick`
 * handlers of the navigation bar, cards and back button, and the handlers
 * `attachEventListeners` wires after every render. A control that is not on
 * the screen, or whose handler is not wired, does nothing.
 */
module Events {
  import opened Base
  import opened State
  import opened Backend
  import opened Sync
  import opened Accounts
  import opened Views

  /** A user action, with the values the page reads from its inputs. */
  datatype Event =
    | LoginSubmit(email: string, senha: string)                 // login button or Enter
    | SearchInput(query: string)                                // the search box
    | BrandClick                                                // "Painel Affinity"
    | ManageLinkClick                                           // "Gerenciar Corretores"
    | LogoutClick                                               // "Sair"
    | CardClick(op: string)                                     // an operator card
    | BackClick                                                 // back from the detail
    | AddFaqClick(pergunta: string, resposta: string)
    | RemoveFaqClick(idx: nat)                                  // the idx-th FAQ's button
    | AddMaterialClick(description: string, link: string)
    | RemoveMaterialClick(idx: nat)
    | AddCorretorClick(nome: string, email: string, senha: string)
    | RemoveCorretorClick(idx: nat)                             // the idx-th listed broker's button

  /** The events that write content or accounts. */
  predicate IsEdit(e: Event) {
    e.AddFaqClick? || e.RemoveFaqClick? || e.AddMaterialClick? || e.RemoveMaterialClick?
    || e.AddCorretorClick? || e.RemoveCorretorClick?
  }

  /**
   * The login form's fields in the state are empty. No handler copies what
   * is typed into them; the program only ever sets them to `""`.
   */
  predicate LoginFieldsEmpty(s: AppState) {
    s.email == "" && s.senha == ""
  }

  /** Nothing happens. */
  function Idle(s: AppState, st: Store): Outcome {
    Outcome(s, st, [], [])
  }

  /**
   * The detail handlers are wired only when the view is the operator detail
   * and the user is the administrator; the buttons exist only when an
   * operator is selected.
   */
  predicate DetailWired(s: AppState) {
    IsAssistente(s) && s.currentView == OperadoraDetail && Selected(s)
  }

  /**
   * The management handlers are wired only when the view is the management
   * screen and the user is the administrator; the form exists only when no
   * operator is selected (otherwise the detail is shown).
   */
  predicate ManagementWired(s: AppState) {
    IsAssistente(s) && s.currentView == GerenciamentoCorretores && !Selected(s)
  }

  /**
   * The effect of event `e` on the page rendered from `s`. `id` stands for
   * the id the store assigns when the event creates a broker document.
   */
  function Dispatch(s: AppState, st: Store, faults: set<Call>, id: string, e: Event): (o: Outcome)
    ensures IsEdit(e) && !IsAssistente(s) ==> o == Idle(s, st)
    ensures !e.LoginSubmit? && s.currentUser.None? ==> o == Idle(s, st)
    ensures e.ManageLinkClick? && o.state != s ==> IsAssistente(s) && o.state.currentView == GerenciamentoCorretores
    ensures ViewGuarded(s) ==> ViewGuarded(o.state)
    ensures LoginFieldsEmpty(s) ==> LoginFieldsEmpty(o.state)
  {
    if IsEdit(e) then Edit(s, st, faults, id, e) else Navigate(s, st, faults, e)
  }

  /**
   * The login form, the search box, and the navigation handlers: the title,
   * the management link (rendered for the administrator only), logout, the
   * cards and the back button.
   */
  function Navigate(s: AppState, st: Store, faults: set<Call>, e: Event): (o: Outcome)
    requires !IsEdit(e)
    ensures !e.LoginSubmit? && s.currentUser.None? ==> o == Idle(s, st)
    ensures e.ManageLinkClick? && o.state != s ==> IsAssistente(s) && o.state.currentView == GerenciamentoCorretores
    ensures e.CardClick? && o.state != s ==>
      e.op in OPERADORAS && CardShown(e.op, s.query) && o.state.selected == Some(e.op) && o.state.currentView == OperadoraDetail
    ensures ViewGuarded(s) ==> ViewGuarded(o.state)
    ensures LoginFieldsEmpty(s) ==> LoginFieldsEmpty(o.state)
  {
    var r := Render(s);
    match e
    case LoginSubmit(email, senha) =>
      if r.LoginScreen? then Login(s, st, faults, email, senha) else Idle(s, st)
    case SearchInput(q) =>
      if r.Panel? && r.hero then Outcome(SetState(s, Keep.(query := Some(q))), st, [], []) else Idle(s, st)
    case BrandClick =>
      if r.Panel? then
        Outcome(SetState(s, Keep.(currentView := Some(Home), selected := Some(None), query := Some(""))), st, [], [])
      else Idle(s, st)
    case ManageLinkClick =>
      if r.Panel? && r.canManage then
        Outcome(SetState(s, Keep.(currentView := Some(GerenciamentoCorretores), selected := Some(None), query := Some(""))),
                st, [], [])
      else Idle(s, st)
    case LogoutClick =>
      if r.Panel? then Logout(s, st, faults) else Idle(s, st)
    case CardClick(op) =>
      if r.Panel? && r.body.HomeGrid? && op in OPERADORAS && CardShown(op, s.query) then
        Outcome(SetState(s, Keep.(selected := Some(Some(op)), currentView := Some(OperadoraDetail))), st, [], [])
      else Idle(s, st)
    case BackClick =>
      if r.Panel? && r.body.Detail? then
        Outcome(SetState(s, Keep.(selected := Some(None), currentView := Some(Home))), st, [], [])
      else Idle(s, st)
  }

  /**
   * The content and account handlers, wired only for the administrator on
   * the matching view. The detail's buttons act on the selected operator,
   * and a remove button exists only for a listed entry.
   */
  function Edit(s: AppState, st: Store, faults: set<Call>, id: string, e: Event): (o: Outcome)
    requires IsEdit(e)
    ensures !IsAssistente(s) ==> o == Idle(s, st)
    ensures OnlyDataChanged(s, o.state.(newNome := s.newNome, newEmail := s.newEmail, newSenha := s.newSenha))
    ensures e.AddFaqClick? && DetailWired(s) ==>
      o == AddFaq(s, st, faults, s.selected.value, e.pergunta, e.resposta)
    ensures e.RemoveFaqClick? && DetailWired(s) && e.idx < |Lookup(s.faqs, s.selected.value)| ==>
      o == RemoveFaq(s, st, faults, s.selected.value, e.idx)
    ensures (e.AddFaqClick? || e.RemoveFaqClick? || e.AddMaterialClick? || e.RemoveMaterialClick?) && !DetailWired(s) ==>
      o == Idle(s, st)
    ensures e.RemoveFaqClick? && DetailWired(s) && e.idx >= |Lookup(s.faqs, s.selected.value)| ==> o == Idle(s, st)
    ensures (e.AddCorretorClick? || e.RemoveCorretorClick?) && !ManagementWired(s) ==> o == Idle(s, st)
    ensures e.RemoveCorretorClick? && ManagementWired(s) && e.idx < |Corretores(s.users)| ==>
      o == RemoveCorretor(s, st, faults, Corretores(s.users)[e.idx].email)
    ensures e.AddMaterialClick? && DetailWired(s) ==>
      o == AddMaterial(s, st, faults, s.selected.value, e.description, e.link)
    ensures e.RemoveMaterialClick? && DetailWired(s) && e.idx < |Lookup(s.materiais, s.selected.value)| ==>
      o == RemoveMaterial(s, st, faults, s.selected.value, e.idx)
    ensures e.RemoveMaterialClick? && DetailWired(s) && e.idx >= |Lookup(s.materiais, s.selected.value)| ==> o == Idle(s, st)
    ensures e.AddCorretorClick? && ManagementWired(s) ==> o == AddCorretor(s, st, faults, id, e.nome, e.email, e.senha)
    ensures e.RemoveCorretorClick? && ManagementWired(s) && e.idx >= |Corretores(s.users)| ==> o == Idle(s, st)
  {
    if e.AddCorretorClick? || e.RemoveCorretorClick? then EditAccounts(s, st, faults, id, e)
    else EditContent(s, st, faults, e)
  }

  /** The detail's handlers: add and remove FAQs and materials of the selected operator. */
  function EditContent(s: AppState, st: Store, faults: set<Call>, e: Event): (o: Outcome)
    requires e.AddFaqClick? || e.RemoveFaqClick? || e.AddMaterialClick? || e.RemoveMaterialClick?
    ensures !DetailWired(s) ==> o == Idle(s, st)
    ensures OnlyDataChanged(s, o.state)
    ensures e.AddFaqClick? && DetailWired(s) ==>
      o == AddFaq(s, st, faults, s.selected.value, e.pergunta, e.resposta)
    ensures e.RemoveFaqClick? && DetailWired(s) && e.idx < |Lookup(s.faqs, s.selected.value)| ==>
      o == RemoveFaq(s, st, faults, s.selected.value, e.idx)
    ensures e.RemoveFaqClick? && DetailWired(s) && e.idx >= |Lookup(s.faqs, s.selected.value)| ==> o == Idle(s, st)
    ensures e.AddMaterialClick? && DetailWired(s) ==>
      o == AddMaterial(s, st, faults, s.selected.value, e.description, e.link)
    ensures e.RemoveMaterialClick? && DetailWired(s) && e.idx < |Lookup(s.materiais, s.selected.value)| ==>
      o == RemoveMaterial(s, st, faults, s.selected.value, e.idx)
    ensures e.RemoveMaterialClick? && DetailWired(s) && e.idx >= |Lookup(s.materiais, s.selected.value)| ==> o == Idle(s, st)
  {
    if !DetailWired(s) then Idle(s, st)
    else
      var op := s.selected.value;
      match e
      case AddFaqClick(pergunta, resposta) => AddFaq(s, st, faults, op, pergunta, resposta)
      case RemoveFaqClick(idx) =>
        if idx < |Lookup(s.faqs, op)| then RemoveFaq(s, st, faults, op, idx) else Idle(s, st)
      case AddMaterialClick(description, link) => AddMaterial(s, st, faults, op, description, link)
      case RemoveMaterialClick(idx) =>
        if idx < |Lookup(s.materiais, op)| then RemoveMaterial(s, st, faults, op, idx) else Idle(s, st)
  }

  /** The management screen's handlers: create a broker, remove a listed one. */
  function EditAccounts(s: AppState, st: Store, faults: set<Call>, id: string, e: Event): (o: Outcome)
    requires e.AddCorretorClick? || e.RemoveCorretorClick?
    ensures !ManagementWired(s) ==> o == Idle(s, st)
    ensures OnlyDataChanged(s, o.state.(newNome := s.newNome, newEmail := s.newEmail, newSenha := s.newSenha))
    ensures e.AddCorretorClick? && ManagementWired(s) ==> o == AddCorretor(s, st, faults, id, e.nome, e.email, e.senha)
    ensures e.RemoveCorretorClick? && ManagementWired(s) && e.idx < |Corretores(s.users)| ==>
      o == RemoveCorretor(s, st, faults, Corretores(s.users)[e.idx].email)
    ensures e.RemoveCorretorClick? && ManagementWired(s) && e.idx >= |Corretores(s.users)| ==> o == Idle(s, st)
  {
    if !ManagementWired(s) then Idle(s, st)
    else
      match e
      case AddCorretorClick(nome, email, senha) => AddCorretor(s, st, faults, id, nome, email, senha)
      case RemoveCorretorClick(idx) =>
        if idx < |Corretores(s.users)| then RemoveCorretor(s, st, faults, Corretores(s.users)[idx].email)
        else Idle(s, st)
  }

  /** One event on the page, with the calls the backend refuses at that moment. */
  datatype Step = Step(faults: set<Call>, id: string, event: Event)

  /** The state and store after a sequence of events, each on the page the previous one left. */
  function Run(s: AppState, st: Store, steps: seq<Step>): (AppState, Store)
    decreases |steps|
  {
    if steps == [] then (s, st)
    else
      var before := Run(s, st, steps[..|steps| - 1]);
      var last := steps[|steps| - 1];
      var o := Dispatch(before.0, before.1, last.faults, last.id, last.event);
      (o.state, o.store)
  }

  lemma {:induction false} RunKeepsViewGuarded(s: AppState, st: Store, steps: seq<Step>)
    requires ViewGuarded(s)
    ensures ViewGuarded(Run(s, st, steps).0)
    decreases |steps|
  {
    if steps != [] {
      RunKeepsViewGuarded(s, st, steps[..|steps| - 1]);
    }
  }

  /**
   * On every page reachable from the initial one, whatever was clicked and
   * whatever failed, editing controls are shown exactly to the administrator.
   */
  lemma {:induction false} ReachableEditControls(st: Store, steps: seq<Step>)
    ensures var s := Run(Initial, st, steps).0;
            HasEditControls(Render(s)) <==> IsAssistente(s)
  {
    InitialScreen();
    RunKeepsViewGuarded(Initial, st, steps);
    EditControlsOnlyForAssistente(Run(Initial, st, steps).0);
  }

  lemma {:induction false} RunKeepsLoginFieldsEmpty(s: AppState, st: Store, steps: seq<Step>)
    requires LoginFieldsEmpty(s)
    ensures LoginFieldsEmpty(Run(s, st, steps).0)
    decreases |steps|
  {
    if steps != [] {
      RunKeepsLoginFieldsEmpty(s, st, steps[..|steps| - 1]);
    }
  }

  /**
   * The login screen never shows anything in its fields: on every reachable
   * page, a login screen is the empty one.
   */
  lemma {:induction false} ReachableLoginScreenEmpty(st: Store, steps: seq<Step>)
    ensures var s := Run(Initial, st, steps).0;
            Render(s).LoginScreen? ==> Render(s) == LoginScreen("", "")
  {
    RunKeepsLoginFieldsEmpty(Initial, st, steps);
  }
}

=== FILE: state.dfy ===
/**
 * The application state of the panel (the module-level `state` object of
 * teste2/script.js) and `setState`, its only update path.
 */
module State {
  import opened Base

  /** The administrative role: may edit content and manage brokers. */
  const ASSISTENTE: string := "Assistente"
  /** The read-only broker role; the only role the panel itself creates. */
  const CORRETOR: string := "Corretor"

  /**
   * An account as loaded from the `users` collection: the document id next to
   * the document's fields. Roles are free strings in the store; the panel
   * compares them against ASSISTENTE and CORRETOR.
   */
  datatype User = User(id: string, nome: string, email: string, senha: string, role: string)

  datatype FaqEntry = FaqEntry(pergunta: string, resposta: string)

  datatype Material = Material(description: string, link: string)

  /** FAQs per operator name, each list in insertion order. */
  type FaqMap = map<string, seq<FaqEntry>>

  /** Support materials per operator name, each list in insertion order. */
  type MaterialMap = map<string, seq<Material>>

  /** The navigation target: `'home'`, `'operadora_detail'`, `'gerenciamento_corretores'`. */
  datatype View = Home | OperadoraDetail | GerenciamentoCorretores

  datatype AppState = AppState(
    users: seq<User>,
    currentUser: Option<User>,
    email: string,
    senha: string,
    currentView: View,
    newNome: string,
    newEmail: string,
    newSenha: string,
    selected: Option<string>,
    query: string,
    faqs: FaqMap,
    materiais: MaterialMap,
    dataLoaded: bool)

  /** The state the page starts in: nobody logged in, nothing loaded. */
  const Initial: AppState :=
    AppState([], None, "", "", Home, "", "", "", None, "", map[], map[], false)

  /** The argument of `setState`: the fields it names (Some) and the ones it leaves out (None). */
  datatype Patch = Patch(
    users: Option<seq<User>>,
    currentUser: Option<Option<User>>,
    email: Option<string>,
    senha: Option<string>,
    currentView: Option<View>,
    newNome: Option<string>,
    newEmail: Option<string>,
    newSenha: Option<string>,
    selected: Option<Option<string>>,
    query: Option<string>,
    faqs: Option<FaqMap>,
    materiais: Option<MaterialMap>,
    dataLoaded: Option<bool>)

  /** The empty update `{}`. */
  const Keep: Patch :=
    Patch(None, None, None, None, None, None, None, None, None, None, None, None, None)

  /** `state = { ...state, ...patch }`: a shallow merge in which the patch wins field by field. */
  function SetState(s: AppState, p: Patch): (r: AppState)
    ensures p == Keep ==> r == s
  {
    AppState(
      p.users.GetOr(s.users),
      p.currentUser.GetOr(s.currentUser),
      p.email.GetOr(s.email),
      p.senha.GetOr(s.senha),
      p.currentView.GetOr(s.currentView),
      p.newNome.GetOr(s.newNome),
      p.newEmail.GetOr(s.newEmail),
      p.newSenha.GetOr(s.newSenha),
      p.selected.GetOr(s.selected),
      p.query.GetOr(s.query),
      p.faqs.GetOr(s.faqs),
      p.materiais.GetOr(s.materiais),
      p.dataLoaded.GetOr(s.dataLoaded))
  }

  function Latest<T>(first: Option<T>, second: Option<T>): Option<T> {
    if second.Some? then second else first
  }

  /** The single patch equivalent to applying `p` and then `q`. */
  function Then(p: Patch, q: Patch): Patch {
    Patch(
      Latest(p.users, q.users),
      Latest(p.currentUser, q.currentUser),
      Latest(p.email, q.email),
      Latest(p.senha, q.senha),
      Latest(p.currentView, q.currentView),
      Latest(p.newNome, q.newNome),
      Latest(p.newEmail, q.newEmail),
      Latest(p.newSenha, q.newSenha),
      Latest(p.selected, q.selected),
      Latest(p.query, q.query),
      Latest(p.faqs, q.faqs),
      Latest(p.materiais, q.materiais),
      Latest(p.dataLoaded, q.dataLoaded))
  }

  /**
   * A patch naming one field sets that field to the patch's value and keeps
   * every other field; a patch naming every field of `t` yields `t`.
   */
  lemma SetStateOneField(s: AppState, t: AppState)
    ensures SetState(s, Keep.(users := Some(t.users))) == s.(users := t.users)
    ensures SetState(s, Keep.(currentUser := Some(t.currentUser))) == s.(currentUser := t.currentUser)
    ensures SetState(s, Keep.(email := Some(t.email))) == s.(email := t.email)
    ensures SetState(s, Keep.(senha := Some(t.senha))) == s.(senha := t.senha)
    ensures SetState(s, Keep.(currentView := Some(t.currentView))) == s.(currentView := t.currentView)
    ensures SetState(s, Keep.(newNome := Some(t.newNome))) == s.(newNome := t.newNome)
    ensures SetState(s, Keep.(newEmail := Some(t.newEmail))) == s.(newEmail := t.newEmail)
    ensures SetState(s, Keep.(newSenha := Some(t.newSenha))) == s.(newSenha := t.newSenha)
    ensures SetState(s, Keep.(selected := Some(t.selected))) == s.(selected := t.selected)
    ensures SetState(s, Keep.(query := Some(t.query))) == s.(query := t.query)
    ensures SetState(s, Keep.(faqs := Some(t.faqs))) == s.(faqs := t.faqs)
    ensures SetState(s, Keep.(materiais := Some(t.materiais))) == s.(materiais := t.materiais)
    ensures SetState(s, Keep.(dataLoaded := Some(t.dataLoaded))) == s.(dataLoaded := t.dataLoaded)
    ensures SetState(s, Patch(Some(t.users), Some(t.currentUser), Some(t.email), Some(t.senha), Some(t.currentView),
                              Some(t.newNome), Some(t.newEmail), Some(t.newSenha), Some(t.selected), Some(t.query),
                              Some(t.faqs), Some(t.materiais), Some(t.dataLoaded))) == t
  {
  }

  /** Two successive `setState` calls are one call with the later patch winning on shared fields. */
  lemma SetStateThen(s: AppState, p: Patch, q: Patch)
    ensures SetState(SetState(s, p), q) == SetState(s, Then(p, q))
  {
  }

  /** Repeating a `setState` call changes nothing more. */
  lemma SetStateIdempotent(s: AppState, p: Patch)
    ensures SetState(SetState(s, p), p) == SetState(s, p)
  {
  }

  /** JavaScript truthiness of `state.selected`: a non-empty operator name. */
  predicate Selected(s: AppState) {
    s.selected.Some? && s.selected.value != ""
  }

  /** The signed-in account has the administrative role. */
  predicate IsAssistente(s: AppState) {
    s.currentUser.Some? && s.currentUser.value.role == ASSISTENTE
  }
}

=== FILE: sync.dfy ===
/**
 * The synchronisation layer of teste2/script.js: `loadData`, the authoritative
 * reload, and the content mutations that write a whole map through
 * `updateSharedContent` and then reload. Every operation returns an Outcome:
 * the new application state and store, the backend calls it issued in order,
 * and the toasts it asked for, in order.
 */
module Sync {
  import opened Base
  import opened Text
  import opened State
  import opened Backend
  import opened Content

  datatype Severity = Info | Success | Warning | Error

  /** The user-visible messages of the panel, one constructor per distinct text. */
  datatype Message =
    | LoadFailed
    | FillEmailAndPassword | NoSuchUser | IncorrectPassword | BadCredentials | LoginFailed
    | FillAllFields | EmailAlreadyRegistered | CorretorCreated(nome: string) | EmailTaken | CreateFailed
    | CannotRemoveMain | UserNotInDatabase | CorretorRemoved(email: string) | RemoveFailed
    | ContentUpdateFailed
    | FillFaqFields | FaqAdded(op: string) | FaqRemoved(op: string)
    | FillMaterialDescription | MaterialAdded(description: string) | MaterialRemoved(op: string)

  datatype Notice = Notice(severity: Severity, message: Message)

  datatype Outcome = Outcome(state: AppState, store: Store, calls: seq<Call>, notices: seq<Notice>)

  /** Runs `o` after calls and notices that happened first. */
  function After(calls: seq<Call>, notices: seq<Notice>, o: Outcome): Outcome {
    o.(calls := calls + o.calls, notices := notices + o.notices)
  }

  /**
   * `t` differs from `s` at most in the data a reload brings in: `users`,
   * `faqs`, `materiais` and `dataLoaded`. Who is logged in, the view, the
   * selection, the search and the form fields are untouched.
   */
  predicate OnlyDataChanged(s: AppState, t: AppState) {
    t == s.(users := t.users, faqs := t.faqs, materiais := t.materiais, dataLoaded := t.dataLoaded)
  }

  /** The local copies equal what the store holds. */
  ghost predicate InSync(s: AppState, st: Store) {
    && st.content.Some?
    && s.users == st.users
    && s.faqs == FaqsOf(st.content.value)
    && s.materiais == MateriaisOf(st.content.value)
  }

  /** The backend answers both reads of a reload. */
  predicate ReadsSucceed(faults: set<Call>) {
    ReadUsers !in faults && ReadContent !in faults
  }

  /** Every call a reload of `st` makes succeeds. */
  predicate LoadSucceeds(st: Store, faults: set<Call>) {
    ReadsSucceed(faults) && (st.content.None? ==> CreateContent !in faults)
  }

  /**
   * `loadData`: with somebody logged in, read all users and the content
   * document; create the document empty when it is missing. Only `users`,
   * `faqs`, `materiais` and `dataLoaded` can change, and any failure leaves
   * the state as it was.
   */
  function LoadData(s: AppState, st: Store, faults: set<Call>): (o: Outcome)
    ensures s.currentUser.None? ==> o == Outcome(s, st, [], [])
    ensures o.calls <= [ReadUsers, ReadContent, CreateContent]
    ensures OnlyDataChanged(s, o.state)
    ensures o.store == st || (st.content.None? && o.store == st.(content := Some(EmptyContent)))
    ensures s.currentUser.Some? && !LoadSucceeds(st, faults) ==>
      o.state == s && o.store == st && o.notices == [Notice(Error, LoadFailed)]
    ensures s.currentUser.Some? && LoadSucceeds(st, faults) ==>
      o.notices == [] && o.state.users == st.users && o.state.dataLoaded
    ensures s.currentUser.Some? && LoadSucceeds(st, faults) && st.content.Some? ==>
      o.store == st && InSync(o.state, o.store)
    ensures s.currentUser.Some? && LoadSucceeds(st, faults) && st.content.None? ==>
      o.store.content == Some(EmptyContent) && o.state.faqs == s.faqs && o.state.materiais == s.materiais
  {
    if s.currentUser.None? then Outcome(s, st, [], [])
    else if Status(st, faults, ReadUsers).Some? then
      Outcome(s, st, [ReadUsers], [Notice(Error, LoadFailed)])
    else
      var users := st.users;
      if Status(st, faults, ReadContent).Some? then
        Outcome(s, st, [ReadUsers, ReadContent], [Notice(Error, LoadFailed)])
      else match st.content
        case Some(d) =>
          Outcome(SetState(s, Keep.(users := Some(users), faqs := Some(FaqsOf(d)),
                                    materiais := Some(MateriaisOf(d)), dataLoaded := Some(true))),
                  st, [ReadUsers, ReadContent], [])
        case None =>
          if Status(st, faults, CreateContent).Some? then
            Outcome(s, st, [ReadUsers, ReadContent, CreateContent], [Notice(Error, LoadFailed)])
          else
            Outcome(SetState(s, Keep.(users := Some(users), dataLoaded := Some(true))),
                    Effect(st, CreateContent), [ReadUsers, ReadContent, CreateContent], [])
  }

  /**
   * Reloading is idempotent once the content document exists: a second
   * successful reload changes neither the state nor the store.
   */
  lemma ReloadTwice(s: AppState, st: Store, faults: set<Call>)
    requires s.currentUser.Some? && st.content.Some? && ReadsSucceed(faults)
    ensures LoadData(LoadData(s, st, faults).state, LoadData(s, st, faults).store, faults)
            == LoadData(s, st, faults).(calls := [ReadUsers, ReadContent])
  {
  }

  /**
   * When the same calls fail on every reload, nothing changes from the second
   * reload on: the first may create the missing document, the second picks
   * it up. (With different failures per reload this needs the document to
   * exist; see ReloadSettlesAfterSuccess.)
   */
  lemma ReloadSettles(s: AppState, st: Store, faults: set<Call>)
    ensures var o2 := LoadData(LoadData(s, st, faults).state, LoadData(s, st, faults).store, faults);
            var o3 := LoadData(o2.state, o2.store, faults);
            o3.state == o2.state && o3.store == o2.store
  {
    var o1 := LoadData(s, st, faults);
    var o2 := LoadData(o1.state, o1.store, faults);
    if s.currentUser.Some? && LoadSucceeds(st, faults) {
      assert o1.store.content.Some?;
      assert LoadSucceeds(o1.store, faults);
      assert LoadSucceeds(o2.store, faults);
    }
  }

  /**
   * A state in step with an existing document is a fixed point of the
   * reload, whatever fails: a failed reload changes nothing, a successful one
   * reads back what is already there.
   */
  lemma ReloadInSyncIsStable(s: AppState, st: Store, faults: set<Call>)
    requires s.currentUser.Some? && s.dataLoaded && InSync(s, st)
    ensures LoadData(s, st, faults).state == s && LoadData(s, st, faults).store == st
  {
  }

  /**
   * Once a reload against an existing document has succeeded, no later
   * reload changes anything, each with its own set of failing calls.
   */
  lemma ReloadSettlesAfterSuccess(s: AppState, st: Store, f1: set<Call>, f2: set<Call>, f3: set<Call>)
    requires s.currentUser.Some? && st.content.Some? && LoadSucceeds(st, f1)
    ensures var o1 := LoadData(s, st, f1);
            var o2 := LoadData(o1.state, o1.store, f2);
            var o3 := LoadData(o2.state, o2.store, f3);
            o2.state == o1.state && o2.store == o1.store && o3.state == o1.state && o3.store == o1.store
  {
    var o1 := LoadData(s, st, f1);
    ReloadInSyncIsStable(o1.state, o1.store, f2);
    ReloadInSyncIsStable(o1.state, o1.store, f3);
  }

  /**
   * The first reload that creates the missing document keeps whatever
   * `faqs` the state already held (say, from an earlier session on the same
   * page), so it is not yet in step with the store; the next reload is.
   */
  lemma FirstReloadKeepsStaleFaqs(s: AppState, st: Store)
    requires s.currentUser.Some? && st.content.None?
    requires s.faqs != map[]
    ensures var o1 := LoadData(s, st, {});
            o1.state.faqs == s.faqs && !InSync(o1.state, o1.store)
            && InSync(LoadData(o1.state, o1.store, {}).state, o1.store)
  {
  }

  /**
   * `updateSharedContent`: replace one top-level field of the content
   * document, then reload. A refused update (including one on a missing
   * document) changes nothing and issues no reload.
   */
  function UpdateSharedContent(s: AppState, st: Store, faults: set<Call>, u: ContentUpdate, done: Message): (o: Outcome)
    ensures |o.calls| >= 1 && o.calls[0] == UpdateContent(u) && |o.notices| >= 1
    ensures OnlyDataChanged(s, o.state)
    ensures o.store.users == st.users && o.store.credentials == st.credentials && o.store.session == st.session
    ensures Status(st, faults, UpdateContent(u)).Some? ==>
      o == Outcome(s, st, [UpdateContent(u)], [Notice(Error, ContentUpdateFailed)])
    ensures Status(st, faults, UpdateContent(u)).None? ==>
      st.content.Some? && o.store.content == Some(Apply(st.content.value, u))
      && o.notices[0] == Notice(Success, done)
    ensures Status(st, faults, UpdateContent(u)).None? && s.currentUser.Some? && ReadsSucceed(faults) ==>
      InSync(o.state, o.store)
  {
    var c := UpdateContent(u);
    if Status(st, faults, c).Some? then Outcome(s, st, [c], [Notice(Error, ContentUpdateFailed)])
    else After([c], [Notice(Success, done)], LoadData(s, Effect(st, c), faults))
  }

  /** The update writes the given map and the reload brings it into the state. */
  predicate Written(st: Store, faults: set<Call>, u: ContentUpdate) {
    st.content.Some? && UpdateContent(u) !in faults && ReadsSucceed(faults)
  }

  /**
   * `addFaq`: an empty question or answer writes nothing. Otherwise the whole
   * `faqs` map is written with the entry appended under `op`, and after the
   * reload the state holds exactly that map.
   */
  function AddFaq(s: AppState, st: Store, faults: set<Call>, op: string, pergunta: string, resposta: string): (o: Outcome)
    ensures OnlyDataChanged(s, o.state)
    ensures pergunta == "" || resposta == "" ==> o == Outcome(s, st, [], [Notice(Warning, FillFaqFields)])
    ensures pergunta != "" && resposta != "" ==>
      |o.calls| >= 1 && o.calls[0].UpdateContent? && o.calls[0].update.SetFaqs?
      && AppendedTo(s.faqs, o.calls[0].update.faqs, op, FaqEntry(pergunta, resposta))
    ensures pergunta != "" && resposta != "" && s.currentUser.Some? && Written(st, faults, o.calls[0].update) ==>
      AppendedTo(s.faqs, o.state.faqs, op, FaqEntry(pergunta, resposta))
      && o.state.materiais == MateriaisOf(st.content.value) && InSync(o.state, o.store)
  {
    if pergunta == "" || resposta == "" then Outcome(s, st, [], [Notice(Warning, FillFaqFields)])
    else
      UpdateSharedContent(s, st, faults, SetFaqs(Append(s.faqs, op, FaqEntry(pergunta, resposta))), FaqAdded(op))
  }

  /**
   * `removeFaq`: writes the whole `faqs` map with position `idx` dropped
   * from `op`'s list; there is no validation, so an out-of-range index
   * rewrites the list unchanged.
   */
  function RemoveFaq(s: AppState, st: Store, faults: set<Call>, op: string, idx: int): (o: Outcome)
    ensures OnlyDataChanged(s, o.state)
    ensures |o.calls| >= 1 && o.calls[0].UpdateContent? && o.calls[0].update.SetFaqs?
    ensures RemovedFrom(s.faqs, o.calls[0].update.faqs, op, idx)
    ensures s.currentUser.Some? && Written(st, faults, o.calls[0].update) ==>
      RemovedFrom(s.faqs, o.state.faqs, op, idx) && InSync(o.state, o.store)
  {
    RemoveEntrySpec(s.faqs, op, idx);
    UpdateSharedContent(s, st, faults, SetFaqs(RemoveEntry(s.faqs, op, idx)), FaqRemoved(op))
  }

  /** The material `addMaterial` builds: trimmed description, normalised link. */
  function NewMaterial(description: string, link: string): Material {
    Material(Trim(description), NormalizeLink(link))
  }

  /**
   * `addMaterial`: a description that is blank after trimming writes nothing.
   * Otherwise the trimmed description and normalised link are appended under
   * `op` and the whole `materiais` map is written.
   */
  function AddMaterial(s: AppState, st: Store, faults: set<Call>, op: string, description: string, link: string): (o: Outcome)
    ensures OnlyDataChanged(s, o.state)
    ensures AllSpace(description) ==> o == Outcome(s, st, [], [Notice(Warning, FillMaterialDescription)])
    ensures !AllSpace(description) ==>
      |o.calls| >= 1 && o.calls[0].UpdateContent? && o.calls[0].update.SetMateriais?
      && AppendedTo(s.materiais, o.calls[0].update.materiais, op, NewMaterial(description, link))
      && |o.notices| >= 1 && o.notices[0].message in {MaterialAdded(Trim(description)), ContentUpdateFailed}
    ensures !AllSpace(description) && s.currentUser.Some? && Written(st, faults, o.calls[0].update) ==>
      AppendedTo(s.materiais, o.state.materiais, op, NewMaterial(description, link))
      && o.state.faqs == FaqsOf(st.content.value) && InSync(o.state, o.store)
  {
    TrimSpec(description);
    if Trim(description) == "" then Outcome(s, st, [], [Notice(Warning, FillMaterialDescription)])
    else
      var m := NewMaterial(description, link);
      UpdateSharedContent(s, st, faults, SetMateriais(Append(s.materiais, op, m)), MaterialAdded(Trim(description)))
  }

  /** `removeMaterial`: the counterpart of RemoveFaq over `materiais`. */
  function RemoveMaterial(s: AppState, st: Store, faults: set<Call>, op: string, idx: int): (o: Outcome)
    ensures OnlyDataChanged(s, o.state)
    ensures |o.calls| >= 1 && o.calls[0].UpdateContent? && o.calls[0].update.SetMateriais?
    ensures RemovedFrom(s.materiais, o.calls[0].update.materiais, op, idx)
    ensures s.currentUser.Some? && Written(st, faults, o.calls[0].update) ==>
      RemovedFrom(s.materiais, o.state.materiais, op, idx) && InSync(o.state, o.store)
  {
    RemoveEntrySpec(s.materiais, op, idx);
    UpdateSharedContent(s, st, faults, SetMateriais(RemoveEntry(s.materiais, op, idx)), MaterialRemoved(op))
  }

  /**
   * For an operator that already had a FAQ list, adding a FAQ and then
   * removing the last position of the reloaded list restores both the
   * state's and the store's `faqs`.
   */
  lemma AddThenRemoveFaq(s: AppState, st: Store, op: string, pergunta: string, resposta: string)
    requires s.currentUser.Some? && InSync(s, st) && op in s.faqs
    requires pergunta != "" && resposta != ""
    ensures var o1 := AddFaq(s, st, {}, op, pergunta, resposta);
            var o2 := RemoveFaq(o1.state, o1.store, {}, op, |s.faqs[op]|);
            o2.state.faqs == s.faqs && FaqsOf(o2.store.content.value) == s.faqs
  {
    var e := FaqEntry(pergunta, resposta);
    var o1 := AddFaq(s, st, {}, op, pergunta, resposta);
    assert o1.state.faqs == Append(s.faqs, op, e);
    RemoveUndoesAppend(s.faqs, op, e);
  }

  /** Adding `example.com/doc` stores it, after the reload, as `https://example.com/doc`. */
  lemma AddMaterialAddsScheme(s: AppState, st: Store, op: string)
    requires s.currentUser.Some? && st.content.Some?
    ensures var o := AddMaterial(s, st, {}, op, "Table", "example.com/doc");
            Lookup(o.state.materiais, op) == Lookup(s.materiais, op) + [Material("Table", "https://example.com/doc")]
  {
    NormalizeBareAddress();
    TrimOfTrimmed("Table");
    assert !AllSpace("Table") by { assert !IsSpace("Table"[0]); }
  }
}

=== FILE: text.dfy ===
/** The string primitives the panel relies on: `trim`, ASCII `toLowerCase` and `includes`. */
module Text {

  /** ECMAScript WhiteSpace and LineTerminator code points: what `String.prototype.trim` strips. */
  predicate IsSpace(c: char) {
    var n := c as int;
    n == 0x09 || n == 0x0A || n == 0x0B || n == 0x0C || n == 0x0D || n == 0x20
    || n == 0xA0 || n == 0x1680 || (0x2000 <= n <= 0x200A) || n == 0x2028 || n == 0x2029
    || n == 0x202F || n == 0x205F || n == 0x3000 || n == 0xFEFF
  }

  ghost predicate AllSpace(s: string) {
    forall i :: 0 <= i < |s| ==> IsSpace(s[i])
  }

  /** Neither end of `s` is white space. */
  ghost predicate Trimmed(s: string) {
    s == [] || (!IsSpace(s[0]) && !IsSpace(s[|s| - 1]))
  }

  function TrimStart(s: string): string {
    if |s| > 0 && IsSpace(s[0]) then TrimStart(s[1..]) else s
  }

  function TrimEnd(s: string): string {
    if |s| > 0 && IsSpace(s[|s| - 1]) then TrimEnd(s[..|s| - 1]) else s
  }

  /** `s.trim()`. */
  function Trim(s: string): string {
    TrimEnd(TrimStart(s))
  }

  /** TrimStart drops exactly a white-space prefix and stops at the first other character. */
  lemma {:induction false} TrimStartSpec(s: string)
    ensures |TrimStart(s)| <= |s|
    ensures TrimStart(s) == s[|s| - |TrimStart(s)|..]
    ensures AllSpace(s[..|s| - |TrimStart(s)|])
    ensures TrimStart(s) == [] || !IsSpace(TrimStart(s)[0])
  {
    if |s| > 0 && IsSpace(s[0]) {
      TrimStartSpec(s[1..]);
      var r := TrimStart(s[1..]);
      assert s[1..][|s| - 1 - |r|..] == s[|s| - |r|..];
      var dropped := s[..|s| - |r|];
      forall i | 0 <= i < |dropped|
        ensures IsSpace(dropped[i])
      {
        if i == 0 {
          assert dropped[0] == s[0];
        } else {
          assert dropped[i] == s[1..][..|s| - 1 - |r|][i - 1];
        }
      }
    }
  }

  /** TrimEnd drops exactly a white-space suffix and stops at the last other character. */
  lemma {:induction false} TrimEndSpec(s: string)
    ensures |TrimEnd(s)| <= |s|
    ensures TrimEnd(s) == s[..|TrimEnd(s)|]
    ensures AllSpace(s[|TrimEnd(s)|..])
    ensures TrimEnd(s) == [] || !IsSpace(TrimEnd(s)[|TrimEnd(s)| - 1])
  {
    if |s| > 0 && IsSpace(s[|s| - 1]) {
      var p := s[..|s| - 1];
      TrimEndSpec(p);
      var r := TrimEnd(p);
      assert p[..|r|] == s[..|r|];
      var dropped := s[|r|..];
      forall i | 0 <= i < |dropped|
        ensures IsSpace(dropped[i])
      {
        if i < |s| - 1 - |r| {
          assert dropped[i] == p[|r|..][i];
        } else {
          assert dropped[i] == s[|s| - 1];
        }
      }
    }
  }

  /** Trimming the end never brings white space back to the front. */
  lemma TrimEndKeepsStart(s: string)
    requires s == [] || !IsSpace(s[0])
    ensures TrimEnd(s) == [] || !IsSpace(TrimEnd(s)[0])
  {
    TrimEndSpec(s);
  }

  /** `trim` keeps a slice of the input and cuts only white space from either end. */
  lemma TrimSlice(s: string)
    ensures |TrimStart(s)| <= |s| && |Trim(s)| <= |TrimStart(s)|
    ensures Trimmed(Trim(s))
    ensures Trim(s) == s[|s| - |TrimStart(s)|..|s| - |TrimStart(s)| + |Trim(s)|]
    ensures AllSpace(s[..|s| - |TrimStart(s)|])
    ensures AllSpace(s[|s| - |TrimStart(s)| + |Trim(s)|..])
  {
    var t := TrimStart(s);
    TrimStartSpec(s);
    TrimEndSpec(t);
    TrimEndKeepsStart(t);
    var a := |s| - |t|;
    var r := Trim(s);
    SliceOfSuffix(s, a, |r|);
    assert r == s[a..a + |r|];
    assert s[a + |r|..] == t[|r|..];
  }

  lemma SliceOfSuffix(s: string, a: nat, k: nat)
    requires a + k <= |s|
    ensures s[a..][..k] == s[a..a + k]
    ensures s[a..][k..] == s[a + k..]
  {
  }

  /**
   * `trim` removes white space from both ends and nothing else: the result is
   * a slice of the input bounded by white space only, it is empty exactly
   * when the input is all white space, and trimming again changes nothing.
   */
  lemma TrimSpec(s: string)
    ensures |TrimStart(s)| <= |s| && |Trim(s)| <= |TrimStart(s)|
    ensures Trimmed(Trim(s))
    ensures Trim(s) == s[|s| - |TrimStart(s)|..|s| - |TrimStart(s)| + |Trim(s)|]
    ensures AllSpace(s[..|s| - |TrimStart(s)|])
    ensures AllSpace(s[|s| - |TrimStart(s)| + |Trim(s)|..])
    ensures Trim(s) == [] <==> AllSpace(s)
    ensures Trim(Trim(s)) == Trim(s)
  {
    TrimSlice(s);
    var t := TrimStart(s);
    TrimStartSpec(s);
    TrimEndSpec(t);
    var a := |s| - |t|;
    var r := Trim(s);
    if r == [] {
      assert t == [];
      assert s == s[..a];
    } else {
      assert s[a..a + |r|] == r;
      assert s[a] == r[0];
    }
    TrimOfTrimmed(r);
  }

  /** A string with no white space at either end is its own trim. */
  lemma TrimOfTrimmed(s: string)
    requires Trimmed(s)
    ensures Trim(s) == s
  {
  }

  /** The ASCII capitals and, position for position, their lower-case letters. */
  const UPPER: string := "ABCDEFGHIJKLMNOPQRSTUVWXYZ"
  const LOWER: string := "abcdefghijklmnopqrstuvwxyz"

  /** `toLowerCase`, restricted to the ASCII letters. */
  function Lower(c: char): (r: char)
    ensures !('A' <= r <= 'Z')
    ensures ('a' <= r <= 'z') <==> ('a' <= c <= 'z' || 'A' <= c <= 'Z')
  {
    if 'A' <= c <= 'Z' then (c as int + 32) as char else c
  }

  /**
   * Lower-casing agrees with the table of ASCII letters: the k-th capital
   * becomes the k-th small letter, every other character stays, and a
   * lower-cased character is its own lower case.
   */
  lemma LowerSpec(c: char)
    ensures forall k :: 0 <= k < |UPPER| && c == UPPER[k] ==> Lower(c) == LOWER[k]
    ensures c !in UPPER ==> Lower(c) == c
    ensures Lower(Lower(c)) == Lower(c)
  {
    UpperTable();
    LowerTable();
    if 'A' <= c <= 'Z' {
      assert c == UPPER[c as int - 'A' as int];
    }
  }

  lemma UpperTable()
    ensures |UPPER| == 26 && forall k :: 0 <= k < 26 ==> UPPER[k] as int == 'A' as int + k
  {
  }

  lemma LowerTable()
    ensures |LOWER| == 26 && forall k :: 0 <= k < 26 ==> LOWER[k] as int == 'a' as int + k
  {
  }

  /** `s.toLowerCase()`, character by character. */
  function LowerStr(s: string): (r: string)
    ensures |r| == |s|
    ensures forall i :: 0 <= i < |r| ==> !('A' <= r[i] <= 'Z')
  {
    seq(|s|, i requires 0 <= i < |s| => Lower(s[i]))
  }

  /**
   * Lower-casing a string is idempotent and works position by position: it
   * commutes with slicing and with concatenation.
   */
  lemma LowerStrSpec(s: string, t: string, i: int, j: int)
    requires 0 <= i <= j <= |s|
    ensures LowerStr(LowerStr(s)) == LowerStr(s)
    ensures LowerStr(s[i..j]) == LowerStr(s)[i..j]
    ensures LowerStr(s + t) == LowerStr(s) + LowerStr(t)
  {
    forall k | 0 <= k < |s| {
      LowerSpec(s[k]);
    }
  }

  /** `t` occurs in `s` starting at position `i`. */
  ghost predicate OccursAt(s: string, t: string, i: int) {
    0 <= i && i + |t| <= |s| && s[i..i + |t|] == t
  }

  /** `s.includes(t)`: tries every start position from left to right. */
  function Includes(s: string, t: string): bool
    decreases |s|
  {
    if t <= s then true
    else if |s| == 0 then false
    else Includes(s[1..], t)
  }

  /** An occurrence at position 0 is a prefix. */
  lemma OccursAtStart(s: string, t: string)
    ensures OccursAt(s, t, 0) <==> t <= s
  {
    if t <= s {
      assert s[0..|t|] == t;
    }
  }

  /** An occurrence past position 0 is an occurrence in the tail, one position earlier. */
  lemma OccursInTail(s: string, t: string, i: int)
    requires |s| > 0 && i > 0
    ensures OccursAt(s, t, i) <==> OccursAt(s[1..], t, i - 1)
  {
    if i + |t| <= |s| {
      assert s[1..][i - 1..i - 1 + |t|] == s[i..i + |t|];
    }
  }

  /** `includes` holds exactly when `t` occurs somewhere in `s`; the empty string occurs everywhere. */
  lemma {:induction false} IncludesSpec(s: string, t: string)
    ensures Includes(s, t) <==> exists i :: OccursAt(s, t, i)
  {
    OccursAtStart(s, t);
    if t <= s {
    } else if |s| == 0 {
      assert forall i :: !OccursAt(s, t, i);
    } else {
      IncludesSpec(s[1..], t);
      if Includes(s[1..], t) {
        var i :| OccursAt(s[1..], t, i);
        OccursInTail(s, t, i + 1);
      } else {
        forall i | OccursAt(s, t, i)
          ensures i > 0 && OccursAt(s[1..], t, i - 1)
        {
          OccursInTail(s, t, i);
        }
      }
    }
  }
}

=== FILE: views.dfy ===
/**
 * The decisions `render` and its helpers make, without the markup: which
 * screen is shown, which operator cards pass the search, whether the "none
 * found" line appears, which edit controls exist and which brokers are listed.
 */
module Views {
  import opened Base
  import opened Text
  import opened State
  import opened Content

  /** The fixed carrier list shown on the home grid, in display order. */
  const OPERADORAS: seq<string> := [
    "Trasmontano", "Amil", "SulAmérica", "Bradesco", "Vera Cruz", "Supermed",
    "Qualicorp", "Porto", "Hapvida", "Unihosp", "MedSênior", "Prevent Senior"]

  /** A home-grid card: the operator and its FAQ and material counts. */
  datatype Card = Card(op: string, faqCount: nat, materialCount: nat)

  /** A listed entry and, for the administrative role, the index its remove button carries. */
  datatype FaqItem = FaqItem(faq: FaqEntry, removeIdx: Option<nat>)
  datatype MaterialItem = MaterialItem(material: Material, removeIdx: Option<nat>)

  datatype Body =
    | HomeGrid(cards: seq<Card>, noneFound: bool)
    | Detail(op: string, faqs: seq<FaqItem>, materiais: seq<MaterialItem>, canAdd: bool)
    | Management(corretores: seq<User>, removeEmails: seq<string>)
    | Blank

  /** The login form, or the panel: navigation (with or without the management link), search hero, body. */
  datatype Screen = LoginScreen(email: string, senha: string) | Panel(canManage: bool, hero: bool, body: Body)

  /** `op.toLowerCase().includes(query.toLowerCase())`. */
  predicate Matches(op: string, query: string) {
    Includes(LowerStr(op), LowerStr(query))
  }

  /** The guard of `renderOperadoraCard`: no query, or a match. */
  predicate CardShown(op: string, query: string) {
    query == "" || Matches(op, query)
  }

  function CardFor(op: string, faqs: FaqMap, materiais: MaterialMap): Card {
    Card(op, |Lookup(faqs, op)|, |Lookup(materiais, op)|)
  }

  /** `OPERADORAS.map(renderOperadoraCard)`, keeping the non-empty cards. */
  function Cards(ops: seq<string>, query: string, faqs: FaqMap, materiais: MaterialMap): seq<Card> {
    if ops == [] then []
    else (if CardShown(ops[0], query) then [CardFor(ops[0], faqs, materiais)] else [])
         + Cards(ops[1..], query, faqs, materiais)
  }

  /** `OPERADORAS.filter(op => op.toLowerCase().includes(query.toLowerCase()))`. */
  function Matching(ops: seq<string>, query: string): seq<string> {
    if ops == [] then []
    else (if Matches(ops[0], query) then [ops[0]] else []) + Matching(ops[1..], query)
  }

  /** The condition for the "no operator found" line. */
  predicate NoneFound(ops: seq<string>, query: string) {
    |Matching(ops, query)| == 0 && query != ""
  }

  /** A card is shown exactly when the query is empty or occurs, lower-cased, in the lower-cased name. */
  lemma CardShownSpec(op: string, query: string)
    ensures CardShown(op, query) <==> query == "" || exists i :: OccursAt(LowerStr(op), LowerStr(query), i)
  {
    IncludesSpec(LowerStr(op), LowerStr(query));
  }

  /**
   * The grid holds a card for each shown operator and only for those, each
   * with that operator's counts; with an empty query every operator is shown.
   * The order of the cards is stated by `CardsAreShownOperators`.
   */
  lemma {:induction false} CardsSpec(ops: seq<string>, query: string, faqs: FaqMap, materiais: MaterialMap)
    ensures |Cards(ops, query, faqs, materiais)| <= |ops|
    ensures forall c :: c in Cards(ops, query, faqs, materiais) ==>
      c.op in ops && CardShown(c.op, query) && c == CardFor(c.op, faqs, materiais)
    ensures forall op :: op in ops && CardShown(op, query) ==> CardFor(op, faqs, materiais) in Cards(ops, query, faqs, materiais)
    ensures query == "" ==> |Cards(ops, query, faqs, materiais)| == |ops|
  {
    if ops != [] {
      CardsSpec(ops[1..], query, faqs, materiais);
      assert forall op :: op in ops ==> op == ops[0] || op in ops[1..];
    }
  }

  /** With a non-empty query, the card guard and the filter of the "none found" test agree. */
  lemma {:induction false} CardsCountMatching(ops: seq<string>, query: string, faqs: FaqMap, materiais: MaterialMap)
    requires query != ""
    ensures |Cards(ops, query, faqs, materiais)| == |Matching(ops, query)|
  {
    if ops != [] {
      CardsCountMatching(ops[1..], query, faqs, materiais);
    }
  }

  /** The "none found" line appears exactly when a query is typed and the grid is empty. */
  lemma NoneFoundSpec(ops: seq<string>, query: string, faqs: FaqMap, materiais: MaterialMap)
    ensures NoneFound(ops, query) <==> query != "" && Cards(ops, query, faqs, materiais) == []
  {
    if query != "" {
      CardsCountMatching(ops, query, faqs, materiais);
    }
  }

  /** One card per listed operator, in list order. */
  function CardsFor(ops: seq<string>, faqs: FaqMap, materiais: MaterialMap): seq<Card> {
    seq(|ops|, i requires 0 <= i < |ops| => CardFor(ops[i], faqs, materiais))
  }

  /** The filter behind "none found" keeps exactly the matching operators. */
  lemma {:induction false} MatchingSpec(ops: seq<string>, query: string)
    ensures |Matching(ops, query)| <= |ops|
    ensures forall op :: op in Matching(ops, query) <==> op in ops && Matches(op, query)
  {
    if ops != [] {
      MatchingSpec(ops[1..], query);
      assert forall op :: op in ops <==> op == ops[0] || op in ops[1..];
    }
  }

  /** Searching a concatenated list is searching each part and concatenating the grids. */
  lemma {:induction false} CardsOfConcat(a: seq<string>, b: seq<string>, query: string, faqs: FaqMap, materiais: MaterialMap)
    ensures Cards(a + b, query, faqs, materiais) == Cards(a, query, faqs, materiais) + Cards(b, query, faqs, materiais)
  {
    if a == [] {
      assert a + b == b;
    } else {
      assert (a + b)[0] == a[0];
      assert (a + b)[1..] == a[1..] + b;
      CardsOfConcat(a[1..], b, query, faqs, materiais);
    }
  }

  /** The "none found" filter of a concatenated list is the concatenation of the filtered parts. */
  lemma {:induction false} MatchingOfConcat(a: seq<string>, b: seq<string>, query: string)
    ensures Matching(a + b, query) == Matching(a, query) + Matching(b, query)
  {
    if a == [] {
      assert a + b == b;
    } else {
      assert (a + b)[0] == a[0];
      assert (a + b)[1..] == a[1..] + b;
      MatchingOfConcat(a[1..], b, query);
    }
  }

  lemma CardsForCons(op: string, rest: seq<string>, faqs: FaqMap, materiais: MaterialMap)
    ensures CardsFor([op] + rest, faqs, materiais) == [CardFor(op, faqs, materiais)] + CardsFor(rest, faqs, materiais)
  {
  }

  /**
   * The grid is the card of every shown operator, in the order of the list
   * and each exactly once: all operators for an empty query, otherwise
   * exactly the ones the "none found" filter keeps.
   */
  lemma CardsAreShownOperators(ops: seq<string>, query: string, faqs: FaqMap, materiais: MaterialMap)
    ensures query == "" ==> Cards(ops, query, faqs, materiais) == CardsFor(ops, faqs, materiais)
    ensures query != "" ==> Cards(ops, query, faqs, materiais) == CardsFor(Matching(ops, query), faqs, materiais)
  {
    if query == "" {
      CardsOfAll(ops, faqs, materiais);
    } else {
      CardsOfMatching(ops, query, faqs, materiais);
    }
  }

  lemma {:induction false} CardsOfAll(ops: seq<string>, faqs: FaqMap, materiais: MaterialMap)
    ensures Cards(ops, "", faqs, materiais) == CardsFor(ops, faqs, materiais)
  {
    if ops != [] {
      CardsOfAll(ops[1..], faqs, materiais);
      CardsForCons(ops[0], ops[1..], faqs, materiais);
      assert [ops[0]] + ops[1..] == ops;
    }
  }

  lemma {:induction false} CardsOfMatching(ops: seq<string>, query: string, faqs: FaqMap, materiais: MaterialMap)
    requires query != ""
    ensures Cards(ops, query, faqs, materiais) == CardsFor(Matching(ops, query), faqs, materiais)
  {
    if ops != [] {
      var rest := ops[1..];
      CardsOfMatching(rest, query, faqs, materiais);
      if Matches(ops[0], query) {
        CardsForCons(ops[0], Matching(rest, query), faqs, materiais);
      }
    }
  }

  /** Searching `bra` among Amil and Bradesco leaves only the Bradesco card. */
  lemma SearchBra(faqs: FaqMap, materiais: MaterialMap)
    ensures Cards(["Amil", "Bradesco"], "bra", faqs, materiais) == [CardFor("Bradesco", faqs, materiais)]
    ensures !NoneFound(["Amil", "Bradesco"], "bra")
  {
    var q := LowerStr("bra");
    assert q == "bra";
    var amil := LowerStr("Amil");
    assert amil == "amil";
    assert !Includes(amil, q) by {
      assert !(q <= amil) by { assert amil[0] != q[0]; }
      assert amil[1..] == "mil";
      assert !(q <= "mil") by { assert "mil"[0] != q[0]; }
      assert "mil"[1..] == "il";
      assert "il"[1..] == "l";
      assert "l"[1..] == "";
      assert !Includes("il", q);
    }
    var brad := LowerStr("Bradesco");
    assert brad == "bradesco";
    assert q <= brad;
    assert Cards(["Amil", "Bradesco"][1..], "bra", faqs, materiais) == [CardFor("Bradesco", faqs, materiais)];
    assert Matching(["Amil", "Bradesco"][1..], "bra") == ["Bradesco"];
  }

  function HomeBody(s: AppState): Body {
    HomeGrid(Cards(OPERADORAS, s.query, s.faqs, s.materiais), NoneFound(OPERADORAS, s.query))
  }

  function FaqItems(faqs: seq<FaqEntry>, editable: bool): seq<FaqItem> {
    seq(|faqs|, i requires 0 <= i < |faqs| => FaqItem(faqs[i], if editable then Some(i) else None))
  }

  function MaterialItems(materiais: seq<Material>, editable: bool): seq<MaterialItem> {
    seq(|materiais|, i requires 0 <= i < |materiais| =>
      MaterialItem(materiais[i], if editable then Some(i) else None))
  }

  /**
   * `renderOperadoraDetail`: the operator's FAQs and materials in stored
   * order (none when the operator has no entry). The add forms and every
   * remove button exist exactly for the administrative role, and the
   * button on the i-th entry carries index i.
   */
  function DetailBody(s: AppState, op: string): (b: Body)
    ensures b.Detail? && b.op == op && (b.canAdd <==> IsAssistente(s))
    ensures |b.faqs| == |Lookup(s.faqs, op)| && |b.materiais| == |Lookup(s.materiais, op)|
    ensures forall i :: 0 <= i < |b.faqs| ==>
      b.faqs[i].faq == Lookup(s.faqs, op)[i]
      && (b.faqs[i].removeIdx.Some? <==> IsAssistente(s))
      && (b.faqs[i].removeIdx.Some? ==> b.faqs[i].removeIdx.value == i)
    ensures forall i :: 0 <= i < |b.materiais| ==>
      b.materiais[i].material == Lookup(s.materiais, op)[i]
      && (b.materiais[i].removeIdx.Some? <==> IsAssistente(s))
      && (b.materiais[i].removeIdx.Some? ==> b.materiais[i].removeIdx.value == i)
  {
    var editable := IsAssistente(s);
    Detail(op, FaqItems(Lookup(s.faqs, op), editable), MaterialItems(Lookup(s.materiais, op), editable), editable)
  }

  /**
   * Pressing the remove button of the i-th listed FAQ drops exactly that
   * entry from the map `removeFaq` writes, when the list shown is the current one.
   */
  lemma RemoveButtonDropsItsEntry(s: AppState, op: string, i: int)
    requires 0 <= i < |DetailBody(s, op).faqs| && DetailBody(s, op).faqs[i].removeIdx.Some?
    ensures var k := DetailBody(s, op).faqs[i].removeIdx.value;
            RemoveEntry(s.faqs, op, k)[op] == Lookup(s.faqs, op)[..i] + Lookup(s.faqs, op)[i + 1..]
  {
    RemoveEntrySpec(s.faqs, op, i);
  }

  /** `users.filter(u => u.role === 'Corretor')`. */
  function Corretores(users: seq<User>): (r: seq<User>)
    ensures |r| <= |users|
    ensures forall u :: u in r <==> u in users && u.role == CORRETOR
  {
    if users == [] then []
    else (if users[0].role == CORRETOR then [users[0]] else []) + Corretores(users[1..])
  }

  /**
   * The management list keeps the brokers in the order the store returned
   * them: filtering a concatenation is concatenating the filtered parts.
   */
  lemma {:induction false} CorretoresOfConcat(a: seq<User>, b: seq<User>)
    ensures Corretores(a + b) == Corretores(a) + Corretores(b)
  {
    if a == [] {
      assert a + b == b;
    } else {
      assert (a + b)[0] == a[0];
      assert (a + b)[1..] == a[1..] + b;
      CorretoresOfConcat(a[1..], b);
    }
  }

  /**
   * `renderGerenciamentoCorretores`: the broker list, the "Cadastrar" form
   * (always rendered) and one "Remover" button per listed broker, carrying
   * that broker's email.
   */
  function ManagementBody(users: seq<User>): (b: Body)
    ensures b.Management? && b.corretores == Corretores(users) && |b.removeEmails| == |b.corretores|
    ensures forall i :: 0 <= i < |b.removeEmails| ==> b.removeEmails[i] == b.corretores[i].email
  {
    var cs := Corretores(users);
    Management(cs, seq(|cs|, i requires 0 <= i < |cs| => cs[i].email))
  }

  /**
   * `render`: the login form when nobody is logged in. Otherwise a selected
   * operator shows its detail whatever the view says; with no selection,
   * `Home` shows the grid, `GerenciamentoCorretores` the broker list, and the
   * remaining view nothing. The search hero accompanies grid and detail only.
   */
  function Render(s: AppState): (r: Screen)
    ensures r.LoginScreen? <==> s.currentUser.None?
    ensures r.LoginScreen? ==> r == LoginScreen(s.email, s.senha)
    ensures r.Panel? ==> (r.canManage <==> IsAssistente(s))
    ensures r.Panel? ==> (r.body.Detail? <==> Selected(s))
    ensures r.Panel? ==> (r.hero <==> Selected(s) || s.currentView == Home)
    ensures r.Panel? && Selected(s) ==> r.body == DetailBody(s, s.selected.value)
    ensures r.Panel? && !Selected(s) ==>
      (r.body.HomeGrid? <==> s.currentView == Home)
      && (r.body.Management? <==> s.currentView == GerenciamentoCorretores)
      && (r.body.Blank? <==> s.currentView == OperadoraDetail)
    ensures r.Panel? && r.body.HomeGrid? ==> r.body == HomeBody(s)
    ensures r.Panel? && r.body.Management? ==> r.body == ManagementBody(s.users)
  {
    if s.currentUser.None? then LoginScreen(s.email, s.senha)
    else
      var canManage := s.currentUser.value.role == ASSISTENTE;
      if s.currentView == Home || Selected(s) then
        Panel(canManage, true, if Selected(s) then DetailBody(s, s.selected.value) else HomeBody(s))
      else if s.currentView == GerenciamentoCorretores then
        Panel(canManage, false, ManagementBody(s.users))
      else
        assert s.currentView == OperadoraDetail;
        Panel(canManage, false, Blank)
  }

  /**
   * Whether a screen offers any editing: the management link, the broker
   * form and remove buttons of the management screen, or an add form or
   * remove button of the detail.
   */
  ghost predicate HasEditControls(r: Screen) {
    r.Panel? && (r.canManage || r.body.Management? || (r.body.Detail? && (r.body.canAdd
      || (exists i :: 0 <= i < |r.body.faqs| && r.body.faqs[i].removeIdx.Some?)
      || (exists i :: 0 <= i < |r.body.materiais| && r.body.materiais[i].removeIdx.Some?))))
  }

  /**
   * Only the administrator's navigation link leads to the management view:
   * a state whose view is the management screen belongs to an administrator.
   */
  predicate ViewGuarded(s: AppState) {
    s.currentView == GerenciamentoCorretores ==> IsAssistente(s)
  }

  /**
   * Editing controls appear for the administrator, and otherwise only on
   * the management screen, which `render` shows to whoever has that view
   * set; in a state where only an administrator can have that view, a
   * broker sees no editing control anywhere.
   */
  lemma EditControlsOnlyForAssistente(s: AppState)
    ensures HasEditControls(Render(s)) <==>
      IsAssistente(s) || (s.currentUser.Some? && !Selected(s) && s.currentView == GerenciamentoCorretores)
    ensures ViewGuarded(s) ==> (HasEditControls(Render(s)) <==> IsAssistente(s))
  {
    var r := Render(s);
    if r.Panel? && r.body.Detail? && !IsAssistente(s) {
      assert forall i :: 0 <= i < |r.body.faqs| ==> r.body.faqs[i].removeIdx.None?;
      assert forall i :: 0 <= i < |r.body.materiais| ==> r.body.materiais[i].removeIdx.None?;
    }
  }

  /** The page starts on the login form, in a guarded state. */
  lemma InitialScreen()
    ensures Render(Initial) == LoginScreen("", "")
    ensures ViewGuarded(Initial) && !HasEditControls(Render(Initial))
  {
  }
}
